=== FILE: README.md ===
# mp_manager in Dafny

A model of the core of `mp_manager`. This is a small Python library that runs a
user-supplied handler over a stream of items, using a pool of worker
processes. The model covers these parts:

- **Utils**: `build_batches`, which splits an iterable into groups of a given size.
- **SharedNamespace**: the `NS` container's `set_shared_value` and
  `get_shared_value`.
- **StatsAggregator**: the statistics counters of `Stats`. `set_stats_val`,
  `inc_stats_val`, `get_stats_val` and `inc_stats_vals` hold the stats lock.
  `add_key`, `stat_keys` and a direct `get_stats` take no lock. Every call is
  modelled as one atomic update of an immutable record.
- **StatsAsWritten**: the same counters laid out the way the source stores
  them. Counters and the registry of names share one namespace. This layout
  is used only for the finding below.
- **ExitProtocol**: the run result `ExitStatus` (constructor, `__iter__`,
  `get_error`, `get_status`), `handle_exception_occurred` and the interrupt
  handler `_sigint_default`. The three events (`error_occurred`,
  `error_processed`, `batch_done`) and the error payload slot are one
  `Signals` record. Pickling is an identity round trip.
- **BaseHandler**: the handler contract. `handle` records the item, resets
  the per-item statistics with the class's `_reset_stats` and calls the
  class's `_handle_item`. The base class leaves `_handle_item`
  unimplemented; a concrete class passes its own `_reset_stats` and
  `_handle_item` as functions. `Manager.FromHandlerClass` turns such a class into the
  pool's view of a handler.
- **Manager**:
  - the worker loop `ItemWorker.run` / `_handle`;
  - the `ImportManager` constructor;
  - the coordinator's `_run`, which spawns the workers, feeds the queue,
    puts the `'STOP'` sentinels and decides whether to wait for the drain;
  - `_feed_queue`, `_error_listener` and `run`;
  - a step relation over every unit's atomic actions.

  The shared queue is a sequence of `Item(x)` / `Stop` entries. A routine
  that re-reads `error_occurred` while it runs gets the values it observes
  as a function `seen` from check number to flag value.
- **Schedule**: whole runs under one sequential schedule. The coordinator
  feeds everything, then the workers run one after another, then the
  listener and `run` finish.

A handler is abstracted as three functions:

- the outcome of `handle(item)`: success, or failure with its formatted
  traceback;
- the handler's `log_item` after handling the item;
- whether the item compares equal to `'STOP'`.

## Model

| member | source | states |
|---|---|---|
| Utils.BuildBatches | mp_manager/utils.py:4-15 | A falsy size yields the input as one batch. Any other size yields the chunks of `abs(size)` elements in order. Python's `len(data) % size == 0` is a divisibility test, so a negative size groups like its absolute value. Concatenating the batches gives back the input. Every batch is non-empty and at most `abs(size)` long, and all but the last are full. There are `ceil(n / abs(size))` batches, and none for an empty input. |
| Utils.ChunksFlatten | mp_manager/utils.py:8-15 | The reference chunking loses nothing and adds nothing: flattening the chunks gives back the sequence. |
| Utils.ChunksSizes | mp_manager/utils.py:11-15 | Every chunk has between 1 and `k` elements, and every chunk but the last has exactly `k`. |
| Utils.ChunksCount | mp_manager/utils.py:11-15 | The number of chunks is the ceiling of `n / k`. |
| Utils.ChunksSnoc | mp_manager/utils.py:9-15 | When a trailing partial group is appended after full groups, the chunking gains exactly that group. This is the step the batching loop takes when it yields its final partial batch. |
| Utils.RemainderZeroOnlyWhenFull | mp_manager/utils.py:11 | While a batch is growing from 1 to `abs(size)` elements, `len % size` is zero only at `abs(size)`, for either sign of `size`. |
| SharedNamespace.SetSharedValue | mp_manager/process_helpers.py:27-38 | After a set, the name reads back as the value in either locking mode, every other name reads as before, and only that name is added. |
| SharedNamespace.GetSharedValue | mp_manager/process_helpers.py:34-38 | A name never set raises AttributeError. Any other name gives its stored value whatever `no_lock` is. |
| SharedNamespace.NoLockDoesNotChangeStoredValue | mp_manager/process_helpers.py:27-38 | The `no_lock` flag of a write is invisible to every later read. |
| StatsAggregator.AddKey | mp_manager/process_helpers.py:109-113 | Registers the name and leaves every counter untouched. The registry invariant is preserved. |
| StatsAggregator.GetStatsVal | mp_manager/process_helpers.py:83-88 | Gives the stored value, or the caller's default for a name that holds none. |
| StatsAggregator.SetStatsVal | mp_manager/process_helpers.py:65-71 | Returns the value, which then reads back. The name is registered, every other counter is unchanged, and the registry invariant is preserved. |
| StatsAggregator.IncStatsVal | mp_manager/process_helpers.py:73-81 | Returns the old value plus the delta, a missing counter counting as 0, and that value reads back. The name is registered and every other counter is unchanged. |
| StatsAggregator.GetStats | mp_manager/process_helpers.py:104-107 | The keys are exactly the registered names minus `ignore_keys`. Each maps to its value, or to None when the name was only registered. |
| StatsAggregator.IncStatsVals | mp_manager/process_helpers.py:90-102 | Each name in `vals` grows by its delta and every other counter is unchanged. The registry gains exactly the keys of `vals`. A snapshot is returned iff `return_stats`. It is `get_stats(ignore_keys)` taken after the update, before the lock is released. |
| StatsAggregator.IncEachEffect | mp_manager/process_helpers.py:73-81 | Incrementing the names of a distinct list one by one registers exactly those names and adds each one's delta. Every other counter is left alone. |
| StatsAggregator.IncStatsValsIsEachIncrement | mp_manager/process_helpers.py:90-97 | The bulk increment equals the single increments applied in any order that lists each name once. |
| StatsAggregator.IncRepeatedTotals | mp_manager/process_helpers.py:90-100 | There are no lost updates. After `t` serialized bulk increments, a counter has grown by exactly `t * vals[n]`, and it is registered iff it was before or `t > 0`. |
| StatsAggregator.RegisteredAfterAll | mp_manager/process_helpers.py:65-117 | After any sequence of set, increment, bulk-increment and add-key operations, every name holding a value is registered. No registered name is ever lost. |
| StatsAggregator.UnwrittenGivesDefault | mp_manager/process_helpers.py:83-88 | A name no operation ever wrote reads as the caller's default. |
| StatsAggregator.GetStatsListsWrittenNames | mp_manager/process_helpers.py:104-117 | After any operations from the empty state, `get_stats` lists every written name outside `ignore_keys` with a value. |
| StatsAggregator.WrittenStaysWritten | mp_manager/process_helpers.py:65-102 | Once an operation writes a name, the name holds a value after every later operation. |
| StatsAsWritten.RawAddKey | mp_manager/process_helpers.py:109-113 | On the shared namespace, `add_key` succeeds iff the `stat_keys` attribute is a set or absent. It adds the name to that set and no other attribute appears or disappears. |
| StatsAsWritten.RawSetStatsVal | mp_manager/process_helpers.py:65-71 | `set_stats_val` on the shared namespace succeeds iff the registry attribute is a set. On success it stores the number under the name. |
| StatsAsWritten.RawSetStatsValAgrees | mp_manager/process_helpers.py:65-71 | For every name other than `stat_keys`, the shared-namespace layout and the separate-registry record agree: same result, same counters, same registry. |
| StatsAsWritten.StatKeysCounterBreaksRegistry | mp_manager/process_helpers.py:65-71 | Storing a counter named `stat_keys` replaces the registry with a number. The next `set_stats_val` of any name then fails. |
| ExitProtocol.NewExitStatus | mp_manager/process_helpers.py:129-137 | With no exception in flight the arguments are kept. With one in flight the message becomes the traceback and the code becomes `code or 1`: 1 for a zero code, the given code otherwise. The target is always the argument. |
| ExitProtocol.Fields | mp_manager/process_helpers.py:154-158 | Yields code, then message, then `target_error` only when the target is not None. |
| ExitProtocol.FieldsRoundTrip | mp_manager/process_helpers.py:154-158 | `__iter__` loses nothing: rebuilding a status from the yielded pairs gives the same status, with or without a target. |
| ExitProtocol.GetError | mp_manager/process_helpers.py:160-162 | Returns a report iff the target is truthy. The report starts with `target: <target>` and ends with the message. |
| ExitProtocol.GetErrorMatchesFields | mp_manager/process_helpers.py:154-162 | `get_error` reports iff the pairs `__iter__` yields include a truthy `target_error`. Its report ends with the `message` value `__iter__` yields. |
| ExitProtocol.HandleExceptionOccurred | mp_manager/process_helpers.py:183-189 | Does nothing once `error_processed` is set. Otherwise it stores the new status, overwriting any earlier one, and sets `error_occurred`. The protocol invariant is preserved. |
| ExitProtocol.GetStatus | mp_manager/process_helpers.py:164-176 | After an error, returns the stored payload. Otherwise returns a fresh `Success`/0 status, or code 1 when the caller is inside an `except`. Under the invariant there is always a status. |
| ExitProtocol.SigintDefault | mp_manager/process_helpers.py:192-193 | Reports an interrupt: the code is the signal number and there is no target. The message is `Keyboard interrupt` when no exception is in flight. |
| ExitProtocol.ReportedStatusIsReturned | mp_manager/process_helpers.py:164-189 | What a report stores is exactly what `get_status` later returns. |
| ExitProtocol.SecondReportBeforeProcessingOverwrites | mp_manager/process_helpers.py:183-189 | Before the listener has processed an error, a second report replaces the first payload. The guard tests `error_processed`, not `error_occurred`. |
| BaseHandler.NewHandler | mp_manager/base_handler.py:6-13 | A new handler has its worker number, no current item and empty stats. |
| BaseHandler.ResetStats | mp_manager/base_handler.py:46-50 | The per-item statistics become empty and nothing else changes. |
| BaseHandler.Label | mp_manager/base_handler.py:35 | `handle` first sets `current_item`, so `log_item` returns the item. The stats and the worker number are kept. |
| BaseHandler.Prepare | mp_manager/base_handler.py:35-36 | In the base class, before any work `current_item` is the item (so `log_item` returns it) and the stats are empty. |
| BaseHandler.Handle | mp_manager/base_handler.py:29-37 | For any class's `_reset_stats` and `_handle_item`, `handle(item)` records the item, then runs the class's own reset on that handler, then runs `_handle_item` on what the reset leaves. The call's result is the result of `_handle_item`. |
| BaseHandler.HandleItem | mp_manager/base_handler.py:39-44 | The base class's `_handle_item` always raises NotImplementedError and leaves the handler unchanged. |
| BaseHandler.HandleIgnoresHistory | mp_manager/base_handler.py:29-37 | For a `_reset_stats` that assigns a fixed dict (the base class's `{}`, or the three zero counters of sample_run.py:37-42), `_handle_item` starts from the worker number, the new item and that dict. So the call's result depends only on the worker number and the item, whatever an earlier call left behind. |
| BaseHandler.BaseHandleFails | mp_manager/base_handler.py:25-50 | In the base class, `handle` runs `_handle_item` on the prepared handler, leaves `log_item` equal to the item and fails with NotImplementedError on every item. |
| Manager.NewImportManager | mp_manager/manager.py:66-72 | Construction fails with AssertionError iff the handler class is `BaseHandler`. `num_workers` defaults to 1. |
| Manager.FromHandlerClass | mp_manager/manager.py:42-52 | The pool's view of a handler class with its own `_reset_stats` and `_handle_item`. `handle(item)` passes iff the class's `handle` completes on the initial handler, and a failure carries the rendered exception. The reported target is `log_item` after that call. |
| Manager.HandleOne | mp_manager/manager.py:42-52 | A success sets `batch_done`. A failure reports code 1 with the traceback and the handler's `log_item` as target, unless the error was already processed. The queue is untouched. |
| Manager.WorkerRun | mp_manager/manager.py:24-36 | The worker handles the leading items of the queue in order, and the flag is checked before every dequeue. It consumes a sentinel without handling it and sets `batch_done` when its loop ends. Only the last handled item can have failed. After a failure the payload is code 1 with that item's traceback and label. |
| Manager.FailureStopsWorker | mp_manager/manager.py:24-31 | After a failing item the worker leaves at its next loop check without another dequeue. |
| Manager.FeedFrom | mp_manager/manager.py:131-136 | Items are put in generator order while the flag is observed unset. The first item pulled with the flag set is dropped and feeding stops. |
| Manager.SentinelsFrom | mp_manager/manager.py:108-110 | One `'STOP'` is appended per worker slot whose check finds the flag unset, and the queue before it is kept. |
| Manager.Sentinels | mp_manager/manager.py:108-110 | The queue gains exactly as many sentinels as checks that found the flag unset. |
| Manager.SentinelCount | mp_manager/manager.py:108-110 | With a flag that stays set once set, the sentinels are the checks before the first set one. That is all workers if it is never seen set. |
| Manager.RunControl | mp_manager/manager.py:100-113 | The coordinator spawns the workers, clearing `batch_done`. The queue then holds the earlier entries, then the first `enqueued` items in generator order, then one `'STOP'` per sentinel-slot check that found the flag unset. Every feed check before `enqueued` found the flag unset. If the feed stopped early, the check after pulling the next item found it set, and that item was pulled and dropped. The coordinator waits for the drain iff the flag is set at the final check. |
| Manager.RunControlWithoutError | mp_manager/manager.py:100-113 | If the flag is never observed set, every item is queued in order, followed by exactly one sentinel per worker, and there is no wait. |
| Manager.RunControlMidFeedError | mp_manager/manager.py:106-113 | If the flag is first seen set after pulling item `k`, only the `k` items before it are queued, item `k` is dropped, no `'STOP'` is put, and the coordinator waits for the drain. |
| Manager.RunControlAfterError | mp_manager/manager.py:100-113 | If the flag is already set, the queue is unchanged and at most one item is pulled (and dropped). The coordinator waits for the drain. |
| Manager.DrainN | mp_manager/manager.py:123-127 | Removes the first `n` entries; an empty queue's exception is swallowed. |
| Manager.DrainKeepsLateEntries | mp_manager/manager.py:123-127 | The drain is bounded by the size read when it starts, so entries added after that survive it. |
| Manager.ErrorListener | mp_manager/manager.py:118-129 | It waits until `error_occurred`, and fails only on a missing payload. It empties the queue, sets `batch_done` and `error_processed`, and keeps the payload. |
| Manager.Run | mp_manager/manager.py:74-83 | A failure of `_run` is reported (code 1, its traceback) only when no payload is stored. The result is the stored payload after an error, and `Success`/0 otherwise. |
| Manager.ConsistentAlways | mp_manager/process_helpers.py:183-189 | After any sequence of reports, interrupts, queue operations and listener runs, `error_processed` implies `error_occurred`, and `error_occurred` implies a stored payload. |
| Manager.PayloadFrozenOnceProcessed | mp_manager/manager.py:118-129 | Once the listener has processed an error, no later action changes the payload, `error_occurred` or `error_processed`. `batch_done` can still be set and cleared. |
| Schedule.WorkerHandlesUpToSentinel | mp_manager/manager.py:24-36 | A worker facing good items and then a sentinel handles exactly those items, consumes the sentinel and sets `batch_done`. |
| Schedule.WorkerStopsAtFailure | mp_manager/manager.py:24-52 | A worker facing good items and then a failing one handles up to and including it and then stops. The payload names that item. |
| Schedule.WorkersAfterErrorLeave | mp_manager/manager.py:24-29 | Workers that start with the flag set handle nothing and leave the queue alone. |
| Schedule.WorkersTakeOneSentinelEach | mp_manager/manager.py:24-31 | Workers facing only sentinels consume one each. |
| Schedule.WorkersWithFailure | mp_manager/manager.py:24-52 | With one failing item, the first worker handles up to it and the rest leave. |
| Schedule.NoFailureRun | mp_manager/manager.py:74-136 | With no failing item, no item that compares equal to `'STOP'` (manager.py:28 would take it as a sentinel) and at least one worker, every item is handled exactly once and in order. Nothing remains queued and the result is code 0 `Success`. |
| Schedule.ZeroWorkersRun | mp_manager/manager.py:66-113 | With `num_workers` zero or negative, which the constructor accepts, no worker is spawned and no `'STOP'` is put. Every item is still queued, none is handled, all of them stay in the queue, and the run returns code 0 `Success`. |
| Schedule.SingleFailureRun | mp_manager/manager.py:74-136 | With one failing item and no item up to it that compares equal to `'STOP'`, the items up to it are handled and none after it. The queue is drained, and the result is code 1 with that item's traceback and label. |
| Schedule.InheritedHandleItemPassesGuard | mp_manager/manager.py:66-72 | The constructor refuses `BaseHandler` itself, but admits any subclass, including one that overrides only `build_items`. A run with such a subclass handles only the first item it yields, which fails with the inherited NotImplementedError, and ends with code 1 naming that item. |

## Left out

- Concurrency is reduced to sequential composition, in these ways:
  - each locked call is one atomic step;
  - the feed, sentinel and wait checks read the flag through `seen`;
  - interleavings are shown by the `Manager.Step` relation and by the sequential schedules of `Schedule`;
  - the listener's drain reads the queue in one step.
- Blocking is not modelled. This covers the bounded queue (`maxsize=100`), the `get()` that waits on an empty queue (a worker in that state has exit `Blocked`), the wait on `error_processed` inside `get_status`, and the joins.
- Pickling is taken to be an exact round trip, so the payload slot holds the status itself.
- Time is not modelled: `start_time`, `time_spent`, `time_start` and `seconds`.
- `ExitProtocol.Fields` omits the `seconds` field of `__iter__`, since it depends on the clock.
- Logging, `print`, `__repr__`, the exit listeners of `get_status` (`add_exit_listener`) and signal installation are not modelled. They are I/O or process setup.
- The error payload slot is the `error` field of `Signals`. Other names stored through `set_shared_value` live in `SharedNamespace`. In the source both are attributes of the one namespace `ns_default`. So `set_shared_value('error', v)` would overwrite the payload. Also, `get_shared_value('error')` returns `None` before any error (process_helpers.py:17) instead of raising. The model does not carry that collision.
- `ImportManager.processes` is a class-level list that accumulates across runs. A single run is modelled, in which the sentinel loop covers exactly the spawned workers.
- The worker's outer `except` (`handle_exception_occurred()` with no target, manager.py:33-34) is not modelled. Code outside `handler.handle` can raise and reach it:
  - the item's `__eq__` in `data == 'STOP'`;
  - a handler's overridden `log_item`, evaluated at manager.py:47 and 51;
  - `pickle.dumps` of the target;
  - the queue;
  - the logger.

  In the model, `ItemHandler.logItem` and `equalsStop` are total and pickling cannot fail.
- Schedule.NoFailureRun: assumes that `log_item`, the `'STOP'` comparison and pickling never raise. If one does (for example, a `log_item` that raises at manager.py:51 after a successful `handle`), the source ends the run with code 1 and no target, which this lemma does not cover.
- Schedule.SingleFailureRun: makes the same assumption about `log_item`, the `'STOP'` comparison and pickling.
- `_get_item_to_handle`'s `StopIteration` branch is not modelled.
- `build_items` is taken to be a finite sequence of items, passed in as a parameter. The base class version returns None (base_handler.py:15-23), so for a subclass that does not override it, iterating it in `_feed_queue` (manager.py:132) raises TypeError before any item is queued. That path is not modelled.
- Statistics values are integers; the source accepts any number.
- StatsAggregator.GetStats: a direct call is treated as atomic. In the source it takes no lock: it reads `stat_keys` and then each value in separate proxy calls, so a concurrent writer can interleave. Only inside `inc_stats_vals` does it run under the stats lock.
- `AddKey` and `StatKeys` take no lock in the source either. In `set_stats_val`, `inc_stats_val` and `inc_stats_vals` they run under the stats lock of their caller.
- A subclass's own handler attributes are not part of `BaseHandler.Handler`. `HandleIgnoresHistory` covers only the attributes the base class defines.
- Manager.FromHandlerClass: every item is handled on the initial handler. State that `_handle_item` or `_reset_stats` leaves in the handler, `worker_num` included, is not carried over to the next item. In the source the worker keeps one handler for all its items. The view is exact when the reset assigns a fixed dict and `_handle_item` keeps `worker_num` (`BaseHandler.HandleIgnoresHistory`).
- StatsAggregator.IncStatsVal: returns the value it stored. In the source the re-read happens after the lock is released, so a concurrent writer can change what is returned.
- `sample_run.py` and `setup.py` are examples and packaging, not part of the core.

## Zero workers

The constructor only reads `num_workers` (manager.py:67); it does not check
it. With zero or a negative number, `range(0, num_workers)` spawns nobody,
`_feed_queue` still queues every item, and the sentinel loop over the empty
process list puts nothing. The flag is never set, so `run` returns a code 0
`Success` status although no item was handled: see
`Schedule.ZeroWorkersRun`. With more items than the queue's capacity of 100
the feed would block instead; blocking is not modelled.

## Guard of `handle_exception_occurred`

The error protocol is usually described as "the first failure wins". The
code's guard, however, tests `error_processed`, not `error_occurred`. Until
the listener has processed the first error, a later report replaces the stored
payload. The model follows the code: see
`ExitProtocol.SecondReportBeforeProcessingOverwrites`. From the moment
`error_processed` is set, the payload is frozen, which
`Manager.PayloadFrozenOnceProcessed` proves.

## Findings

| source | as written | input that shows it | evidently intended | confidence | as-written member | corrected member |
|---|---|---|---|---|---|---|
| mp_manager/process_helpers.py:109-117 | Counters and the registry of names are attributes of one namespace, the registry under `stat_keys`. A counter named `stat_keys` overwrites the registry with a number. | `set_stats_val('stat_keys', 5)` then `set_stats_val('items_total', 100)`. The first call leaves `stat_keys` = 5 and the name is not registered. The second call's `add_key` calls `.add` on an int and raises AttributeError while the stats lock is held. | Every written name is registered, and any name can be used as a counter. | not executed | StatsAsWritten.StatKeysCounterBreaksRegistry | StatsAggregator.RegisteredAfterAll |

The corrected layout keeps the registry apart from the counters: the
`StatsAggregator.Stats` record. All other statistics members use it.
`StatsAsWritten.RawSetStatsValAgrees` shows that the two layouts agree for
every other name.

=== FILE: base_handler.dfy ===
/** The handler contract the worker calls (`BaseHandler`): `handle(item)`
    records the item, resets the per-item statistics and then runs the
    class's `_handle_item`, which the base class leaves unimplemented and a
    concrete handler class overrides. */
module BaseHandler {
  import opened Wrappers

  datatype HandlerError = NotImplementedError

  /** A handler instance: its worker number, the item being handled
      (`current_item`) and the per-item statistics (`stats`). Attributes a
      subclass adds are not part of this record. */
  datatype Handler<T> = Handler(workerNum: int, currentItem: Option<T>, stats: map<string, int>)

  /** A class's `_handle_item()`: runs on the handler's state, may update
      it, and completes or raises an `E`. */
  type HandleItemFn<!T, E> = Handler<T> -> (Handler<T>, Outcome<E>)

  /** `BaseHandler(worker_num, logger)`: no current item, empty stats (the
      class attributes it starts from). */
  function NewHandler<T>(workerNum: int): (h: Handler<T>)
    ensures h.workerNum == workerNum
    ensures h.currentItem == None && h.stats == map[]
  {
    Handler(workerNum, None, map[])
  }

  /** `log_item`: the label used when reporting the current item; the base
      class uses the item itself. */
  function LogItem<T>(h: Handler<T>): Option<T>
  {
    h.currentItem
  }

  /** `_reset_stats()`: the per-item statistics become the empty map,
      nothing else changes. */
  function ResetStats<T>(h: Handler<T>): (r: Handler<T>)
    ensures r.stats == map[]
    ensures r.currentItem == h.currentItem && r.workerNum == h.workerNum
  {
    h.(stats := map[])
  }

  /** `self.current_item = item`, the first step of `handle(item)`. */
  function Label<T>(h: Handler<T>, item: T): (r: Handler<T>)
    ensures LogItem(r) == Some(item)
    ensures r.stats == h.stats && r.workerNum == h.workerNum
  {
    h.(currentItem := Some(item))
  }

  /** The state the base class's `_handle_item` starts from inside
      `handle(item)`: the item recorded, then the base reset. */
  function Prepare<T>(h: Handler<T>, item: T): (r: Handler<T>)
    ensures LogItem(r) == Some(item)
    ensures r.stats == map[]
    ensures r.workerNum == h.workerNum
  {
    ResetStats(Label(h, item))
  }

  /** `handle(item)` for a class whose `_reset_stats` is `resetStats` and
      whose `_handle_item` is `handleItem`: the item is recorded first, the
      class's own reset runs on that, and `_handle_item` runs on what the
      reset leaves; its result is the call's result. */
  function Handle<T, E>(h: Handler<T>, item: T, resetStats: Handler<T> -> Handler<T>,
                        handleItem: HandleItemFn<T, E>): (r: (Handler<T>, Outcome<E>))
    ensures r == handleItem(resetStats(Label(h, item)))
  {
    var labelled := h.(currentItem := Some(item));
    handleItem(resetStats(labelled))
  }

  /** The base class's `_handle_item()`: always raises NotImplementedError,
      leaving the handler as it was. */
  function HandleItem<T>(h: Handler<T>): (r: (Handler<T>, Outcome<HandlerError>))
    ensures r.0 == h
    ensures r.1.Fail? && r.1.error == NotImplementedError
  {
    (h, Fail(NotImplementedError))
  }

  /** With a `_reset_stats` that assigns a fixed dict `cleared` to the stats
      (the base class assigns `{}`, the sample handler three zero
      counters), `_handle_item` starts from the worker number, the new item
      and `cleared`: whatever item and statistics an earlier call left behind,
      the call's result depends only on the worker number and the item. */
  lemma {:induction false} HandleIgnoresHistory<T, E>(h1: Handler<T>, h2: Handler<T>, item: T,
                                                      resetStats: Handler<T> -> Handler<T>, cleared: map<string, int>,
                                                      handleItem: HandleItemFn<T, E>)
    requires forall g :: resetStats(g) == Handler(g.workerNum, g.currentItem, cleared)
    requires h1.workerNum == h2.workerNum
    ensures Handle(h1, item, resetStats, handleItem) == handleItem(Handler(h1.workerNum, Some(item), cleared))
    ensures Handle(h1, item, resetStats, handleItem) == Handle(h2, item, resetStats, handleItem)
  {
    assert resetStats(Label(h1, item)) == Handler(h1.workerNum, Some(item), cleared);
    assert resetStats(Label(h2, item)) == Handler(h1.workerNum, Some(item), cleared);
  }

  /** In the base class, `handle` runs `_handle_item` on the prepared
      handler, labels it with its item and fails with NotImplementedError
      on every item. */
  lemma BaseHandleFails<T>(h: Handler<T>, item: T)
    ensures Handle(h, item, ResetStats, HandleItem).0 == Prepare(h, item)
    ensures LogItem(Handle(h, item, ResetStats, HandleItem).0) == Some(item)
    ensures Handle(h, item, ResetStats, HandleItem).1 == Fail(NotImplementedError)
  {
  }
}

=== FILE: exit_protocol.dfy ===
/** The run result (`ExitStatus`) and the error protocol around it:
    `handle_exception_occurred`, `ExitStatus.get_status` and the interrupt
    handler `_sigint_default`, acting on the coordination signals and the
    error payload slot of the shared namespace. Pickling of the payload is
    an identity round trip here, so the slot holds the status itself. */
module ExitProtocol {
  import opened Wrappers

  const SuccessMessage: string := "Success"
  const InterruptMessage: string := "Keyboard interrupt"

  /** `ExitStatus`: completion code, message and the item that triggered the
      failure (`target_error`), whose type `L` is whatever the handler's
      `log_item` yields. */
  datatype ExitStatus<L> = ExitStatus(code: int, message: string, target: Option<L>)

  /** The keyword arguments `message`, `code` and `target` of the
      `ExitStatus` constructor, which `handle_exception_occurred` forwards. */
  datatype ReportArgs<L> = ReportArgs(message: string, code: int, target: Option<L>)

  /** The constructor defaults: `message='Success', code=0, target=None`. */
  function DefaultArgs<L>(): ReportArgs<L>
  {
    ReportArgs(SuccessMessage, 0, None)
  }

  /** `ExitStatus(message, code, target)`. `inFlight` is the formatted
      traceback of the exception being handled when the constructor runs,
      if any: it replaces the message, and a zero code becomes 1. */
  function NewExitStatus<L>(args: ReportArgs<L>, inFlight: Option<string>): (r: ExitStatus<L>)
    ensures r.target == args.target
    ensures inFlight.None? ==> r.code == args.code && r.message == args.message
    ensures inFlight.Some? ==> r.message == inFlight.value && r.code != 0
    ensures inFlight.Some? && args.code != 0 ==> r.code == args.code
    ensures inFlight.Some? && args.code == 0 ==> r.code == 1
  {
    match inFlight
    case None => ExitStatus(args.code, args.message, args.target)
    case Some(trace) => ExitStatus(if args.code != 0 then args.code else 1, trace, args.target)
  }

  /** One field yielded by `ExitStatus.__iter__`. */
  datatype FieldValue<L> = CodeValue(code: int) | MessageValue(message: string) | TargetValue(target: L)

  /** `ExitStatus.__iter__`: the (name, value) pairs of the fields that are
      not None, in declaration order. */
  function Fields<L>(es: ExitStatus<L>): (r: seq<(string, FieldValue<L>)>)
    ensures |r| == if es.target.Some? then 3 else 2
    ensures r[0] == ("code", CodeValue(es.code)) && r[1] == ("message", MessageValue(es.message))
    ensures es.target.Some? ==> r[2] == ("target_error", TargetValue(es.target.value))
  {
    [("code", CodeValue(es.code)), ("message", MessageValue(es.message))]
      + match es.target
        case Some(t) => [("target_error", TargetValue(t))]
        case None => []
  }

  /** `dict(pairs)[key]`: the value of the last pair named `key`. */
  function Lookup<L>(fs: seq<(string, FieldValue<L>)>, key: string): Option<FieldValue<L>>
    decreases |fs|
  {
    if |fs| == 0 then None
    else if fs[|fs| - 1].0 == key then Some(fs[|fs| - 1].1)
    else Lookup(fs[..|fs| - 1], key)
  }

  /** Rebuilds a status from the pairs `__iter__` yields (as `dict(status)`
      would index them); `None` when the code or the message is missing. */
  function FromFields<L>(fs: seq<(string, FieldValue<L>)>): Option<ExitStatus<L>>
  {
    match (Lookup(fs, "code"), Lookup(fs, "message"))
    case (Some(CodeValue(c)), Some(MessageValue(m))) =>
      var target := match Lookup(fs, "target_error")
        case Some(TargetValue(t)) => Some(t)
        case _ => None;
      Some(ExitStatus(c, m, target))
    case _ => None
  }

  /** `__iter__` loses nothing: the status can be rebuilt from its fields,
      with or without a target. */
  lemma FieldsRoundTrip<L>(es: ExitStatus<L>)
    ensures FromFields(Fields(es)) == Some(es)
  {
    var fs := Fields(es);
    assert "message" != "code" by { assert "message"[0] != "code"[0]; }
    assert "target_error" != "code" by { assert "target_error"[0] != "code"[0]; }
    assert "target_error" != "message" by { assert "target_error"[0] != "message"[0]; }
    var two := fs[..2];
    assert two[..1] == [fs[0]];
    assert Lookup(two, "code") == Some(CodeValue(es.code));
    assert Lookup(two, "message") == Some(MessageValue(es.message));
    assert Lookup(two[..1], "target_error") == Lookup(two[..1][..0], "target_error");
    assert Lookup(two, "target_error") == None;
    if es.target.None? {
      assert fs == two;
    } else {
      assert fs[..|fs| - 1] == two;
    }
  }

  /** `get_error()`: a "target: ...\nmessage: ..." report when the target is
      truthy, `None` otherwise. `truthy` and `render` are Python's `bool()`
      and `str()` on the target. */
  function GetError<L>(es: ExitStatus<L>, truthy: L -> bool, render: L -> string): (r: Option<string>)
    ensures r.Some? <==> es.target.Some? && truthy(es.target.value)
    ensures r.Some? ==> "target: " + render(es.target.value) <= r.value
    ensures r.Some? ==> |r.value| >= |es.message| && r.value[|r.value| - |es.message|..] == es.message
  {
    match es.target
    case Some(t) =>
      if truthy(t) then
        var text := "target: " + render(t) + "\nmessage: " + es.message;
        assert text[|text| - |es.message|..] == es.message;
        Some(text)
      else None
    case None => None
  }

  /** `get_error` agrees with `__iter__`: it reports exactly when the
      pairs yielded name a truthy `target_error`, and its report ends with
      the `message` value yielded. */
  lemma GetErrorMatchesFields<L>(es: ExitStatus<L>, truthy: L -> bool, render: L -> string)
    ensures var t := Lookup(Fields(es), "target_error");
      GetError(es, truthy, render).Some? <==> t.Some? && t.value.TargetValue? && truthy(t.value.target)
    ensures var m := Lookup(Fields(es), "message");
      m.Some? && m.value.MessageValue? &&
      (GetError(es, truthy, render).Some? ==> var e := GetError(es, truthy, render).value;
        |e| >= |m.value.message| && e[|e| - |m.value.message|..] == m.value.message)
  {
    FieldsRoundTrip(es);
  }

  /** The coordination signals of one run and the error payload slot
      (`ns_default.error`). */
  datatype Signals<L> = Signals(
    errorOccurred: bool,
    errorProcessed: bool,
    batchDone: bool,
    error: Option<ExitStatus<L>>)

  /** Fresh signals: every event cleared, `ns_default.error = None`. */
  function Initial<L>(): Signals<L>
  {
    Signals(false, false, false, None)
  }

  /** The protocol invariant: the listener only processes an error that
      occurred, and an error only occurs with a payload stored. */
  predicate Consistent<L>(sig: Signals<L>)
  {
    && (sig.errorProcessed ==> sig.errorOccurred)
    && (sig.errorOccurred ==> sig.error.Some?)
  }

  /** `handle_exception_occurred(**kwargs)`: a no-op once the listener has
      processed an error; otherwise builds the status, stores it in the
      payload slot (overwriting any earlier one) and sets `error_occurred`. */
  function HandleExceptionOccurred<L>(sig: Signals<L>, args: ReportArgs<L>, inFlight: Option<string>): (r: Signals<L>)
    ensures sig.errorProcessed ==> r == sig
    ensures !sig.errorProcessed ==> r.errorOccurred && r.error == Some(NewExitStatus(args, inFlight))
    ensures r.errorProcessed == sig.errorProcessed && r.batchDone == sig.batchDone
    ensures Consistent(sig) ==> Consistent(r)
  {
    if sig.errorProcessed then sig
    else sig.(error := Some(NewExitStatus(args, inFlight)), errorOccurred := true)
  }

  /** `ExitStatus.get_status()`, once the wait for `error_processed` has
      returned: the stored payload if an error occurred (Python's `None`
      when the slot is empty), else a freshly built default status. */
  function GetStatus<L>(sig: Signals<L>, inFlight: Option<string>): (r: Option<ExitStatus<L>>)
    ensures sig.errorOccurred ==> r == sig.error
    ensures !sig.errorOccurred && inFlight.None? ==> r == Some(ExitStatus(0, SuccessMessage, None))
    ensures !sig.errorOccurred && inFlight.Some? ==> r.Some? && r.value.code == 1
    ensures Consistent(sig) ==> r.Some?
  {
    if sig.errorOccurred then sig.error else Some(NewExitStatus(DefaultArgs(), inFlight))
  }

  /** `_sigint_default(signal, frame)`: reports an interrupt with the signal
      number as the code. */
  function SigintDefault<L>(sig: Signals<L>, signum: int, inFlight: Option<string>): (r: Signals<L>)
    ensures sig.errorProcessed ==> r == sig
    ensures !sig.errorProcessed ==> r.errorOccurred && r.error.Some? && r.error.value.target.None?
    ensures !sig.errorProcessed && inFlight.None? ==> r.error == Some(ExitStatus(signum, InterruptMessage, None))
    ensures !sig.errorProcessed && signum != 0 ==> r.error.value.code == signum
    ensures Consistent(sig) ==> Consistent(r)
  {
    HandleExceptionOccurred(sig, ReportArgs(InterruptMessage, signum, None), inFlight)
  }

  /** The payload round trip: what a report stores is exactly what
      `get_status` hands back, whatever the caller's own exception state. */
  lemma ReportedStatusIsReturned<L>(sig: Signals<L>, args: ReportArgs<L>, inFlight: Option<string>, callerInFlight: Option<string>)
    requires !sig.errorProcessed
    ensures GetStatus(HandleExceptionOccurred(sig, args, inFlight), callerInFlight) == Some(NewExitStatus(args, inFlight))
  {
  }

  /** As written, the guard tests `error_processed`: a second report made
      before the listener has processed the first replaces the payload. */
  lemma SecondReportBeforeProcessingOverwrites<L>(sig: Signals<L>, a1: ReportArgs<L>, e1: Option<string>, a2: ReportArgs<L>, e2: Option<string>)
    requires !sig.errorProcessed
    ensures HandleExceptionOccurred(HandleExceptionOccurred(sig, a1, e1), a2, e2).error == Some(NewExitStatus(a2, e2))
  {
  }
}

=== FILE: manager.dfy ===
/** The pool's control logic (`ItemWorker`, `ImportManager`) as a sequential
    abstraction: the shared queue is a sequence, the events are booleans of
    `ExitProtocol.Signals`, and each routine is a function of the state it
    starts from. Where a routine re-reads the error flag while it runs (the
    feed loop, the sentinel loop, the wait), it is given the answers it
    observes as a function `seen` from check number to flag value; no
    interleaving is modelled beyond that. */
module Manager {
  import opened Wrappers
  import opened ExitProtocol
  import BaseHandler

  /** A queue entry: a work item or the `'STOP'` sentinel. */
  datatype Entry<T> = Item(value: T) | Stop

  /** The shared state of one run: the input queue and the signals. */
  datatype Pool<T, L> = Pool(queue: seq<Entry<T>>, sig: Signals<L>)

  /** What the pool uses of the handler class: the outcome of
      `handler.handle(item)` (Pass, or Fail with the formatted traceback),
      the handler's `log_item` after handling `item`, and whether
      `item == 'STOP'` holds in Python. */
  datatype ItemHandler<!T, L> = ItemHandler(
    handle: T -> Outcome<string>,
    logItem: T -> L,
    equalsStop: T -> bool)

  /** The pool's view of worker `h0`'s handler whose class's
      `_reset_stats` is `resetStats` and whose `_handle_item` is
      `handleItem`: `handle(item)` passes or fails with the exception's
      traceback (`render`), and the target reported is `log_item` after the
      call. Every item is handled on the initial handler `h0`: a state that
      `_handle_item` leaves in the handler, `worker_num` included, is not
      carried over to the next item. `BaseHandler.HandleIgnoresHistory`
      shows this is exact when the reset assigns a fixed dict and
      `_handle_item` keeps `worker_num`. */
  function FromHandlerClass<T(!new), E>(h0: BaseHandler.Handler<T>, resetStats: BaseHandler.Handler<T> -> BaseHandler.Handler<T>,
                                        handleItem: BaseHandler.HandleItemFn<T, E>,
                                        render: E -> string, equalsStop: T -> bool): (r: ItemHandler<T, Option<T>>)
    ensures forall item :: r.handle(item).Pass? <==> BaseHandler.Handle(h0, item, resetStats, handleItem).1.Pass?
    ensures forall item :: BaseHandler.Handle(h0, item, resetStats, handleItem).1.Fail? ==>
      r.handle(item) == Fail(render(BaseHandler.Handle(h0, item, resetStats, handleItem).1.error))
    ensures forall item :: r.logItem(item) == BaseHandler.LogItem(BaseHandler.Handle(h0, item, resetStats, handleItem).0)
    ensures r.equalsStop == equalsStop
  {
    ItemHandler(
      item => match BaseHandler.Handle(h0, item, resetStats, handleItem).1
        case Pass => Pass
        case Fail(e) => Fail(render(e)),
      item => BaseHandler.LogItem(BaseHandler.Handle(h0, item, resetStats, handleItem).0),
      equalsStop)
  }

  /** The worker's `data == 'STOP'` test: the sentinel itself, or an item
      that compares equal to the string. */
  predicate IsSentinel<T, L>(h: ItemHandler<T, L>, e: Entry<T>)
  {
    e.Stop? || h.equalsStop(e.value)
  }

  function Items<T>(xs: seq<T>): (r: seq<Entry<T>>)
    ensures |r| == |xs|
    ensures forall i :: 0 <= i < |xs| ==> r[i] == Item(xs[i])
  {
    seq(|xs|, i requires 0 <= i < |xs| => Item(xs[i]))
  }

  function Stops<T>(n: nat): (r: seq<Entry<T>>)
    ensures |r| == n
    ensures forall i :: 0 <= i < n ==> r[i] == Stop
  {
    seq(n, _ => Stop)
  }

  // ---------------------------------------------------------------------
  // Construction

  /** The handler class passed to `ImportManager`. */
  datatype HandlerClass = BaseHandlerClass | Subclass(name: string)

  datatype ManagerError = AssertionError

  datatype ImportManager = ImportManager(numWorkers: int, handlerClass: HandlerClass)

  /** `ImportManager(import_handler, num_workers=...)`: `num_workers`
      defaults to 1; `BaseHandler` itself is refused by the assertion. */
  function NewImportManager(handlerClass: HandlerClass, numWorkers: Option<int>): (r: Result<ImportManager, ManagerError>)
    ensures r.Failure? <==> handlerClass == BaseHandlerClass
    ensures r.Success? ==> r.value.handlerClass == handlerClass
    ensures r.Success? && numWorkers.None? ==> r.value.numWorkers == 1
    ensures r.Success? && numWorkers.Some? ==> r.value.numWorkers == numWorkers.value
  {
    var n := if numWorkers.Some? then numWorkers.value else 1;
    if handlerClass == BaseHandlerClass then Failure(AssertionError)
    else Success(ImportManager(n, handlerClass))
  }

  /** `range(0, num_workers)` has this many elements. */
  function SpawnCount(numWorkers: int): (n: nat)
    ensures numWorkers > 0 ==> n == numWorkers
    ensures numWorkers <= 0 ==> n == 0
  {
    if numWorkers > 0 then numWorkers else 0
  }

  // ---------------------------------------------------------------------
  // ItemWorker

  /** `ItemWorker._handle(item)`: on success `batch_done` is set; on failure
      the error is reported from inside the `except` block, with the
      handler's `log_item` as target. */
  function HandleOne<T, L>(p: Pool<T, L>, h: ItemHandler<T, L>, item: T): (r: Pool<T, L>)
    ensures r.queue == p.queue
    ensures h.handle(item).Pass? ==> r.sig == p.sig.(batchDone := true)
    ensures h.handle(item).Fail? && p.sig.errorProcessed ==> r == p
    ensures h.handle(item).Fail? && !p.sig.errorProcessed ==>
      r.sig.errorOccurred && r.sig.error == Some(ExitStatus(1, h.handle(item).error, Some(h.logItem(item))))
    ensures r.sig.errorProcessed == p.sig.errorProcessed
    ensures Consistent(p.sig) ==> Consistent(r.sig)
    ensures Consistent(p.sig) && h.handle(item).Fail? ==> r.sig.errorOccurred
  {
    match h.handle(item)
    case Pass => p.(sig := p.sig.(batchDone := true))
    case Fail(trace) =>
      p.(sig := HandleExceptionOccurred(p.sig, ReportArgs(SuccessMessage, 0, Some(h.logItem(item))), Some(trace)))
  }

  /** Why a worker's loop ended: it dequeued a sentinel, it found
      `error_occurred` set at the top of the loop, or it is blocked in
      `get()` on an empty queue. */
  datatype WorkerExit = SentinelSeen | ErrorSeen | Blocked

  datatype WorkerResult<T, L> = WorkerResult(pool: Pool<T, L>, handled: seq<T>, exit: WorkerExit)

  /** `ItemWorker.run()` run alone against the queue: test `error_occurred`,
      dequeue, stop on a sentinel, otherwise `_handle` and loop. The `else`
      branch of its `try` sets `batch_done` whenever the loop ends. */
  function WorkerRun<T, L>(p: Pool<T, L>, h: ItemHandler<T, L>): (r: WorkerResult<T, L>)
    decreases |p.queue|
    // the items handled are the leading entries of the queue, in order
    ensures |r.handled| <= |p.queue|
    ensures forall i :: 0 <= i < |r.handled| ==> p.queue[i] == Item(r.handled[i]) && !IsSentinel(h, p.queue[i])
    // the flag is checked before any dequeue
    ensures p.sig.errorOccurred ==> r.exit == ErrorSeen && r.handled == [] && r.pool.queue == p.queue
    // a sentinel is consumed but never handled
    ensures r.exit == SentinelSeen ==>
      |r.handled| < |p.queue| && IsSentinel(h, p.queue[|r.handled|]) && r.pool.queue == p.queue[|r.handled| + 1..]
    ensures r.exit != SentinelSeen ==> r.pool.queue == p.queue[|r.handled|..]
    ensures r.exit == Blocked ==> r.pool.queue == []
    ensures r.exit != Blocked ==> r.pool.sig.batchDone
    ensures r.exit == ErrorSeen ==> r.pool.sig.errorOccurred
    ensures r.pool.sig.errorProcessed == p.sig.errorProcessed
    ensures Consistent(p.sig) ==> Consistent(r.pool.sig)
    // only the last handled item can have failed, and then the worker stops
    ensures Consistent(p.sig) ==> forall i :: 0 <= i < |r.handled| - 1 ==> h.handle(r.handled[i]).Pass?
    ensures Consistent(p.sig) && r.exit != ErrorSeen ==> forall i :: 0 <= i < |r.handled| ==> h.handle(r.handled[i]).Pass?
    ensures Consistent(p.sig) && r.exit == ErrorSeen && |r.handled| > 0 ==> h.handle(r.handled[|r.handled| - 1]).Fail?
    ensures Consistent(p.sig) && r.exit == ErrorSeen && !p.sig.errorOccurred ==> |r.handled| > 0
    ensures Consistent(p.sig) && !p.sig.errorOccurred && r.exit == ErrorSeen ==>
      var last := r.handled[|r.handled| - 1];
      r.pool.sig.error == Some(ExitStatus(1, h.handle(last).error, Some(h.logItem(last))))
    ensures Consistent(p.sig) && !p.sig.errorOccurred && r.exit != ErrorSeen ==>
      !r.pool.sig.errorOccurred && r.pool.sig.error == p.sig.error
  {
    if p.sig.errorOccurred then
      WorkerResult(p.(sig := p.sig.(batchDone := true)), [], ErrorSeen)
    else if |p.queue| == 0 then
      WorkerResult(p, [], Blocked)
    else
      var e := p.queue[0];
      var p1 := p.(queue := p.queue[1..]);
      if IsSentinel(h, e) then
        WorkerResult(p1.(sig := p1.sig.(batchDone := true)), [], SentinelSeen)
      else
        var p2 := HandleOne(p1, h, e.value);
        var rest := WorkerRun(p2, h);
        assert p.queue[1..][|rest.handled|..] == p.queue[|rest.handled| + 1..];
        WorkerResult(rest.pool, [e.value] + rest.handled, rest.exit)
  }

  /** A failing `handle` makes the worker leave at its next loop check: in
      a consistent state the flag is set afterwards, so the loop ends
      without another dequeue. */
  lemma FailureStopsWorker<T, L>(p: Pool<T, L>, h: ItemHandler<T, L>, item: T)
    requires Consistent(p.sig)
    requires h.handle(item).Fail?
    ensures WorkerRun(HandleOne(p, h, item), h).exit == ErrorSeen
    ensures WorkerRun(HandleOne(p, h, item), h).handled == []
    ensures WorkerRun(HandleOne(p, h, item), h).pool.queue == p.queue
  {
  }

  // ---------------------------------------------------------------------
  // ImportManager._feed_queue and the sentinel loop

  /** Result of `_feed_queue`: the queue afterwards, how many items were
      put on it and how many were pulled from the generator. */
  datatype FeedResult<T> = FeedResult(queue: seq<Entry<T>>, enqueued: nat, pulled: nat)

  lemma ItemsCons<T>(items: seq<T>, i: nat, k: nat)
    requires i + 1 + k <= |items|
    ensures [Item(items[i])] + Items(items[i + 1..i + 1 + k]) == Items(items[i..i + 1 + k])
  {
  }

  /** `_feed_queue` from generator position `i`: each pulled item is put on
      the queue while `seen(i)`, the flag as observed after pulling item
      `i`, is unset; the first item pulled with the flag set is dropped and
      feeding stops. */
  function FeedFrom<T>(queue: seq<Entry<T>>, items: seq<T>, seen: nat -> bool, i: nat): (r: FeedResult<T>)
    requires i <= |items|
    decreases |items| - i
    ensures i + r.enqueued <= |items|
    ensures r.queue == queue + Items(items[i..i + r.enqueued])
    ensures forall j :: i <= j < i + r.enqueued ==> !seen(j)
    ensures i + r.enqueued < |items| ==> seen(i + r.enqueued) && r.pulled == i + r.enqueued + 1
    ensures i + r.enqueued == |items| ==> r.pulled == |items|
  {
    if i == |items| then FeedResult(queue, 0, |items|)
    else if seen(i) then FeedResult(queue, 0, i + 1)
    else
      var r := FeedFrom(queue + [Item(items[i])], items, seen, i + 1);
      ItemsCons(items, i, r.enqueued);
      FeedResult(r.queue, r.enqueued + 1, r.pulled)
  }

  function Feed<T>(queue: seq<Entry<T>>, items: seq<T>, seen: nat -> bool): FeedResult<T>
  {
    FeedFrom(queue, items, seen, 0)
  }

  /** The number of checks `j` with `i <= j < n` that found the flag
      unset. */
  function CountUnset(seen: nat -> bool, i: nat, n: nat): (c: nat)
    requires i <= n
    decreases n - i
    ensures c <= n - i
  {
    if i == n then 0 else (if seen(i) then 0 else 1) + CountUnset(seen, i + 1, n)
  }

  /** The sentinel loop from worker slot `i` on: one `'STOP'` per slot whose
      check finds `error_occurred` unset. */
  function SentinelsFrom<T>(queue: seq<Entry<T>>, workers: nat, seen: nat -> bool, i: nat): (r: seq<Entry<T>>)
    requires i <= workers
    decreases workers - i
    ensures |queue| <= |r| && r[..|queue|] == queue
    ensures forall j :: |queue| <= j < |r| ==> r[j] == Stop
    ensures |r| == |queue| + CountUnset(seen, i, workers)
  {
    if i == workers then queue
    else SentinelsFrom(if seen(i) then queue else queue + [Stop], workers, seen, i + 1)
  }

  function Sentinels<T>(queue: seq<Entry<T>>, workers: nat, seen: nat -> bool): (r: seq<Entry<T>>)
    ensures r == queue + Stops(CountUnset(seen, 0, workers))
  {
    var r := SentinelsFrom(queue, workers, seen, 0);
    assert r == queue + Stops(CountUnset(seen, 0, workers));
    r
  }

  /** The flag, once observed set, stays set (the events are never cleared
      during a run). */
  ghost predicate Monotone(seen: nat -> bool)
  {
    forall i: nat, j: nat :: i <= j && seen(i) ==> seen(j)
  }

  /** With the flag never observed set, every spawned worker gets exactly
      one sentinel; once it is observed set, no further sentinel is put, so
      the count is the number of checks before the first set one. */
  lemma {:induction false} SentinelCount(seen: nat -> bool, i: nat, workers: nat, k: nat)
    requires Monotone(seen)
    requires i <= workers
    requires forall j: nat :: j < k ==> !seen(j)
    requires k <= workers ==> seen(k)
    ensures CountUnset(seen, i, workers) == if i <= k then (if k < workers then k else workers) - i else 0
    decreases workers - i
  {
    if i < workers {
      SentinelCount(seen, i + 1, workers, k);
    }
  }

  // ---------------------------------------------------------------------
  // ImportManager._run: spawn, feed, sentinels, wait

  /** The coordinator's part of `_run`: the pool afterwards, how many
      workers were spawned, how many items were put on the queue and how
      many were pulled from `build_items()`, and whether it waits for
      `error_processed`. */
  datatype ControlResult<T, L> = ControlResult(pool: Pool<T, L>, spawned: nat, enqueued: nat, pulled: nat, waitsForDrain: bool)

  /** The flag observations `seen` shifted by `k` checks. */
  function Shift(seen: nat -> bool, k: nat): nat -> bool
  {
    (j: nat) => seen(j + k)
  }

  /** The coordinator's part of `_run`, joins aside: spawn the workers
      (clearing `batch_done` after each), feed the queue, put the
      sentinels, then decide whether to wait for `error_processed`.
      `seen(j)` is the flag value at the coordinator's `j`-th check: the
      feed's checks come first (one per pulled item), then one per sentinel
      slot, then the wait. */
  function RunControl<T, L>(p: Pool<T, L>, mgr: ImportManager, items: seq<T>, seen: nat -> bool): (r: ControlResult<T, L>)
    ensures r.spawned == SpawnCount(mgr.numWorkers)
    ensures r.pool.sig == if r.spawned > 0 then p.sig.(batchDone := false) else p.sig
    // the fed items are a prefix of the generator's, put while the flag was unset
    ensures r.enqueued <= r.pulled <= |items|
    ensures forall j :: 0 <= j < r.enqueued ==> !seen(j)
    ensures r.enqueued < |items| ==> seen(r.enqueued) && r.pulled == r.enqueued + 1
    ensures r.enqueued == |items| ==> r.pulled == |items|
    // the queue: what was there, the fed items, then one sentinel per unset slot check
    ensures r.pool.queue == p.queue + Items(items[..r.enqueued]) + Stops(CountUnset(Shift(seen, r.pulled), 0, r.spawned))
    ensures r.waitsForDrain == seen(r.pulled + r.spawned)
  {
    var spawned := SpawnCount(mgr.numWorkers);
    var sig := if spawned > 0 then p.sig.(batchDone := false) else p.sig;
    var fed := Feed(p.queue, items, seen);
    assert items[0..fed.enqueued] == items[..fed.enqueued];
    var queue := Sentinels(fed.queue, spawned, Shift(seen, fed.pulled));
    ControlResult(Pool(queue, sig), spawned, fed.enqueued, fed.pulled, seen(fed.pulled + spawned))
  }

  /** A run whose coordinator never observes the error flag feeds every
      item in generator order, then puts exactly one sentinel per spawned
      worker, and does not wait for a drain. */
  lemma RunControlWithoutError<T, L>(p: Pool<T, L>, mgr: ImportManager, items: seq<T>, seen: nat -> bool)
    requires forall j: nat :: !seen(j)
    ensures var r := RunControl(p, mgr, items, seen);
      && r.pool.queue == p.queue + Items(items) + Stops(r.spawned)
      && r.pulled == |items|
      && !r.waitsForDrain
  {
    var r := RunControl(p, mgr, items, seen);
    assert r.enqueued == |items|;
    assert items[..|items|] == items;
    SentinelCount(Shift(seen, r.pulled), 0, r.spawned, r.spawned + 1);
  }

  /** A run whose flag is first observed set at the check after pulling
      item `k`: the `k` items before it are queued in order, item `k` is
      pulled and dropped, no sentinel is put, and the coordinator waits for
      the drain. */
  lemma RunControlMidFeedError<T, L>(p: Pool<T, L>, mgr: ImportManager, items: seq<T>, seen: nat -> bool, k: nat)
    requires Monotone(seen)
    requires k < |items|
    requires forall j: nat :: j < k ==> !seen(j)
    requires seen(k)
    ensures var r := RunControl(p, mgr, items, seen);
      && r.pool.queue == p.queue + Items(items[..k])
      && r.enqueued == k
      && r.pulled == k + 1
      && r.waitsForDrain
  {
    var r := RunControl(p, mgr, items, seen);
    assert r.enqueued == k;
    assert Monotone(Shift(seen, r.pulled));
    SentinelCount(Shift(seen, r.pulled), 0, r.spawned, 0);
    assert Stops<T>(0) == [];
  }

  /** A run that starts with the flag already set pulls one item, drops it,
      puts no sentinel and waits for the drain. */
  lemma RunControlAfterError<T, L>(p: Pool<T, L>, mgr: ImportManager, items: seq<T>, seen: nat -> bool)
    requires Monotone(seen)
    requires seen(0)
    ensures var r := RunControl(p, mgr, items, seen);
      && r.pool.queue == p.queue
      && r.pulled == (if |items| > 0 then 1 else 0)
      && r.waitsForDrain
  {
    var r := RunControl(p, mgr, items, seen);
    assert r.enqueued == 0;
    assert Items(items[..0]) == [];
    assert Monotone(Shift(seen, r.pulled));
    SentinelCount(Shift(seen, r.pulled), 0, r.spawned, 0);
    assert Stops<T>(0) == [];
  }

  // ---------------------------------------------------------------------
  // ImportManager._error_listener

  /** `for _ in range(n): get_nowait()`, with the exception an empty queue
      raises swallowed. */
  function DrainN<T>(q: seq<T>, n: nat): (r: seq<T>)
    decreases n
    ensures n <= |q| ==> r == q[n..]
    ensures n >= |q| ==> r == []
  {
    if n == 0 then q else DrainN(if |q| > 0 then q[1..] else q, n - 1)
  }

  /** Draining is bounded by the size read at the start: entries a producer
      adds after that read are left in the queue. */
  lemma DrainKeepsLateEntries<T>(q: seq<T>, late: seq<T>)
    ensures DrainN(q + late, |q|) == late
  {
    assert (q + late)[|q|..] == late;
  }

  datatype ListenerResult<T, L> = Waiting | Crashed | Finished(pool: Pool<T, L>)

  /** `_error_listener()`: waits for `error_occurred`, loads the payload
      (a missing one makes `pickle.loads(None)` raise, ending the thread),
      drains the `qsize()` entries present, sets `batch_done` and then
      `error_processed`. */
  function ErrorListener<T, L>(p: Pool<T, L>): (r: ListenerResult<T, L>)
    ensures r.Waiting? <==> !p.sig.errorOccurred
    ensures r.Crashed? <==> p.sig.errorOccurred && p.sig.error.None?
    ensures Consistent(p.sig) ==> !r.Crashed?
    ensures r.Finished? ==> r.pool.queue == []
    ensures r.Finished? ==> r.pool.sig.errorProcessed && r.pool.sig.batchDone
    ensures r.Finished? ==> r.pool.sig.errorOccurred && r.pool.sig.error == p.sig.error
    ensures r.Finished? ==> Consistent(r.pool.sig)
  {
    if !p.sig.errorOccurred then Waiting
    else if p.sig.error.None? then Crashed
    else
      var drained := DrainN(p.queue, |p.queue|);
      Finished(Pool(drained, p.sig.(batchDone := true, errorProcessed := true)))
  }

  // ---------------------------------------------------------------------
  // ImportManager.run

  /** `run()`: if `_run` raised (`runFailure` is its traceback), the failure
      is reported only when no payload is stored yet; the result is always
      `get_status()`, called with no exception in flight. */
  function Run<T, L>(p: Pool<T, L>, runFailure: Option<string>): (r: (Pool<T, L>, Option<ExitStatus<L>>))
    ensures runFailure.None? || p.sig.error.Some? ==> r.0 == p
    ensures r.0.queue == p.queue
    ensures r.1 == GetStatus(r.0.sig, None)
    ensures runFailure.Some? && p.sig.error.None? && !p.sig.errorProcessed ==>
      r.1 == Some(ExitStatus(1, runFailure.value, None))
    ensures Consistent(p.sig) ==> Consistent(r.0.sig) && r.1.Some?
    ensures Consistent(p.sig) && p.sig.errorOccurred ==> r.1 == p.sig.error
    ensures runFailure.None? && !p.sig.errorOccurred ==> r.1 == Some(ExitStatus(0, SuccessMessage, None))
  {
    var p1 := if runFailure.Some? && p.sig.error.None? then
        p.(sig := HandleExceptionOccurred(p.sig, DefaultArgs(), runFailure))
      else p;
    (p1, GetStatus(p1.sig, None))
  }

  // ---------------------------------------------------------------------
  // The protocol as a step relation over every unit's actions

  /** One atomic action on the shared state by any unit. */
  datatype Event<T, L> =
    | Report(args: ReportArgs<L>, inFlight: Option<string>)   // handle_exception_occurred
    | Interrupt(signum: int, inFlight: Option<string>)        // _sigint_default
    | Put(entry: Entry<T>)                                     // input_queue.put
    | Take                                                     // input_queue.get by a worker
    | Listen                                                   // the error listener's run
    | MarkBatchDone                                            // batch_done.set
    | ClearBatchDone                                           // batch_done.clear

  function Step<T, L>(p: Pool<T, L>, e: Event<T, L>): Pool<T, L>
  {
    match e
    case Report(args, inFlight) => p.(sig := HandleExceptionOccurred(p.sig, args, inFlight))
    case Interrupt(signum, inFlight) => p.(sig := SigintDefault(p.sig, signum, inFlight))
    case Put(entry) => p.(queue := p.queue + [entry])
    case Take => if |p.queue| > 0 then p.(queue := p.queue[1..]) else p
    case Listen => (
      match ErrorListener(p)
      case Finished(p1) => p1
      case _ => p)
    case MarkBatchDone => p.(sig := p.sig.(batchDone := true))
    case ClearBatchDone => p.(sig := p.sig.(batchDone := false))
  }

  function Steps<T, L>(p: Pool<T, L>, es: seq<Event<T, L>>): Pool<T, L>
    decreases |es|
  {
    if |es| == 0 then p else Steps(Step(p, es[0]), es[1..])
  }

  /** The protocol invariant holds after any sequence of actions: in
      particular `error_processed` is never set before `error_occurred`. */
  lemma {:induction false} ConsistentAlways<T, L>(p: Pool<T, L>, es: seq<Event<T, L>>)
    requires Consistent(p.sig)
    ensures Consistent(Steps(p, es).sig)
    decreases |es|
  {
    if |es| > 0 {
      ConsistentAlways(Step(p, es[0]), es[1..]);
    }
  }

  /** Once the listener has processed an error the payload is frozen: no
      later report, interrupt or listener run changes it. */
  lemma {:induction false} PayloadFrozenOnceProcessed<T, L>(p: Pool<T, L>, es: seq<Event<T, L>>)
    requires p.sig.errorProcessed
    ensures Steps(p, es).sig.errorProcessed
    ensures Steps(p, es).sig.errorOccurred == p.sig.errorOccurred
    ensures Steps(p, es).sig.error == p.sig.error
    decreases |es|
  {
    if |es| > 0 {
      PayloadFrozenOnceProcessed(Step(p, es[0]), es[1..]);
    }
  }
}

=== FILE: schedule.dfy ===
/** Whole runs under one sequential schedule: the coordinator spawns the
    workers, feeds every item and puts the sentinels without observing an
    error, then the workers run one after another, each until its loop
    ends, then the coordinator checks the flag (the listener drains the
    queue when it is set) and `run` returns the status. The queue capacity
    is taken to be large enough for the feed not to block. */
module Schedule {
  import opened Wrappers
  import opened ExitProtocol
  import opened Manager
  import BaseHandler

  /** Workers `0 .. n-1` run in turn; the items they handled, in order. */
  function RunWorkers<T, L>(p: Pool<T, L>, h: ItemHandler<T, L>, n: nat): (r: (Pool<T, L>, seq<T>))
    decreases n
  {
    if n == 0 then (p, [])
    else
      var w := WorkerRun(p, h);
      var rest := RunWorkers(w.pool, h, n - 1);
      (rest.0, w.handled + rest.1)
  }

  datatype RunOutcome<T, L> = RunOutcome(pool: Pool<T, L>, handled: seq<T>, status: Option<ExitStatus<L>>)

  /** The flag as the coordinator observes it in this schedule: unset. */
  function NeverSet(): nat -> bool
  {
    (j: nat) => false
  }

  /** One run of `ImportManager(...).run()` under the schedule above. */
  function SequentialRun<T, L>(mgr: ImportManager, h: ItemHandler<T, L>, items: seq<T>): RunOutcome<T, L>
  {
    var c := RunControl(Pool([], Initial()), mgr, items, NeverSet());
    var w := RunWorkers(c.pool, h, c.spawned);
    var result := Finish(w.0);
    RunOutcome(result.0, w.1, result.1)
  }

  /** The end of the run once the workers are done: the coordinator finds
      the flag set only if a worker failed, and then waits for the listener
      to drain the queue; `run` returns `get_status()`. */
  function Finish<T, L>(p: Pool<T, L>): (r: (Pool<T, L>, Option<ExitStatus<L>>))
    ensures p.sig.errorOccurred && p.sig.error.Some? ==> r.0.queue == [] && r.1 == p.sig.error
    ensures !p.sig.errorOccurred ==> r.0.queue == p.queue && r.1 == Some(ExitStatus(0, SuccessMessage, None))
  {
    var drained := if p.sig.errorOccurred then
        match ErrorListener(p)
        case Finished(p1) => p1
        case _ => p
      else p;
    Run(drained, None)
  }

  /** Every item succeeds and none compares equal to `'STOP'`. */
  predicate AllSucceed<T, L>(h: ItemHandler<T, L>, xs: seq<T>)
  {
    forall i :: 0 <= i < |xs| ==> h.handle(xs[i]).Pass? && !h.equalsStop(xs[i])
  }

  /** Handled items that sit before a stop position in the queue all come
      before it. */
  lemma HandledBeforeStop<T>(q: seq<Entry<T>>, hs: seq<T>, k: nat)
    requires k < |q| && q[k] == Stop
    requires |hs| <= |q|
    requires forall i :: 0 <= i < |hs| ==> q[i] == Item(hs[i])
    ensures |hs| <= k
  {
  }

  /** A worker facing good items followed by a sentinel handles exactly
      those items and consumes the sentinel. */
  lemma WorkerHandlesUpToSentinel<T, L>(p: Pool<T, L>, h: ItemHandler<T, L>, xs: seq<T>, rest: seq<Entry<T>>)
    requires Consistent(p.sig) && !p.sig.errorOccurred
    requires p.queue == Items(xs) + [Stop] + rest
    requires AllSucceed(h, xs)
    ensures WorkerRun(p, h).handled == xs
    ensures WorkerRun(p, h).exit == SentinelSeen
    ensures WorkerRun(p, h).pool.queue == rest
    ensures WorkerRun(p, h).pool.sig == p.sig.(batchDone := true)
  {
    var r := WorkerRun(p, h);
    assert p.queue[|xs|] == Stop;
    HandledBeforeStop(p.queue, r.handled, |xs|);
    forall i | 0 <= i < |r.handled|
      ensures r.handled[i] == xs[i]
    {
      assert p.queue[i] == Item(xs[i]);
    }
    forall i | 0 <= i < |xs|
      ensures !IsSentinel(h, p.queue[i])
    {
      assert p.queue[i] == Item(xs[i]);
    }
    assert r.exit == SentinelSeen;
    assert |r.handled| == |xs|;
    assert r.handled == xs;
    assert p.queue[|xs| + 1..] == rest;
  }

  /** A worker facing good items, then a failing item, handles all of them
      and stops with the failing item recorded as the error's target. */
  lemma WorkerStopsAtFailure<T, L>(p: Pool<T, L>, h: ItemHandler<T, L>, xs: seq<T>, bad: T, rest: seq<Entry<T>>)
    requires Consistent(p.sig) && !p.sig.errorOccurred
    requires p.queue == Items(xs) + [Item(bad)] + rest
    requires AllSucceed(h, xs)
    requires h.handle(bad).Fail? && !h.equalsStop(bad)
    ensures WorkerRun(p, h).handled == xs + [bad]
    ensures WorkerRun(p, h).exit == ErrorSeen
    ensures WorkerRun(p, h).pool.queue == rest
    ensures WorkerRun(p, h).pool.sig.errorOccurred
    ensures WorkerRun(p, h).pool.sig.error == Some(ExitStatus(1, h.handle(bad).error, Some(h.logItem(bad))))
  {
    var r := WorkerRun(p, h);
    var n := |xs|;
    assert p.queue[n] == Item(bad);
    forall i | 0 <= i <= n
      ensures !IsSentinel(h, p.queue[i])
    {
      if i < n {
        assert p.queue[i] == Item(xs[i]);
      }
    }
    forall i | 0 <= i < |r.handled| && i <= n
      ensures r.handled[i] == (xs + [bad])[i]
    {
      assert p.queue[i] == Item(r.handled[i]);
    }
    assert |r.handled| > n;
    assert r.exit == ErrorSeen;
    assert |r.handled| == n + 1;
    assert r.handled == xs + [bad];
    assert p.queue[n + 1..] == rest;
  }

  /** Workers that find the flag set leave without touching the queue. */
  lemma {:induction false} WorkersAfterErrorLeave<T, L>(p: Pool<T, L>, h: ItemHandler<T, L>, n: nat)
    requires p.sig.errorOccurred
    ensures RunWorkers(p, h, n).1 == []
    ensures RunWorkers(p, h, n).0.queue == p.queue
    ensures RunWorkers(p, h, n).0.sig.error == p.sig.error
    ensures RunWorkers(p, h, n).0.sig.errorOccurred
    ensures RunWorkers(p, h, n).0.sig.errorProcessed == p.sig.errorProcessed
    decreases n
  {
    if n > 0 {
      WorkersAfterErrorLeave(WorkerRun(p, h).pool, h, n - 1);
    }
  }

  /** Workers facing only sentinels take one each. */
  lemma {:induction false} WorkersTakeOneSentinelEach<T, L>(p: Pool<T, L>, h: ItemHandler<T, L>, n: nat, m: nat)
    requires Consistent(p.sig) && !p.sig.errorOccurred
    requires n <= m
    requires p.queue == Stops(m)
    ensures RunWorkers(p, h, n).1 == []
    ensures RunWorkers(p, h, n).0.queue == Stops(m - n)
    ensures !RunWorkers(p, h, n).0.sig.errorOccurred
    ensures RunWorkers(p, h, n).0.sig.error == p.sig.error
    decreases n
  {
    if n > 0 {
      var w := WorkerRun(p, h);
      assert p.queue == Items([]) + [Stop] + Stops(m - 1);
      WorkerHandlesUpToSentinel(p, h, [], Stops(m - 1));
      WorkersTakeOneSentinelEach(w.pool, h, n - 1, m - 1);
    }
  }

  /** The coordinator's phase of the schedule: every item queued in order,
      then one sentinel per worker, with no error observed. */
  lemma StartOfRun<T, L>(mgr: ImportManager, items: seq<T>)
    requires mgr.numWorkers >= 1
    ensures var c := RunControl(Pool([], Initial<L>()), mgr, items, NeverSet());
      && c.spawned == mgr.numWorkers
      && c.pool.queue == Items(items) + Stops(c.spawned)
      && c.pool.sig == Initial<L>().(batchDone := false)
  {
    RunControlWithoutError(Pool([], Initial<L>()), mgr, items, NeverSet());
  }

  lemma ItemsSplit<T>(pre: seq<T>, bad: T, post: seq<T>)
    ensures Items(pre + [bad] + post) == Items(pre) + [Item(bad)] + Items(post)
  {
  }

  /** With at least one worker and no failing item, every item is handled
      exactly once, in order, nothing is left queued and the run succeeds
      with code 0. */
  lemma NoFailureRun<T, L>(mgr: ImportManager, h: ItemHandler<T, L>, items: seq<T>)
    requires mgr.numWorkers >= 1
    requires AllSucceed(h, items)
    ensures SequentialRun(mgr, h, items).handled == items
    ensures SequentialRun(mgr, h, items).pool.queue == []
    ensures SequentialRun(mgr, h, items).status == Some(ExitStatus(0, SuccessMessage, None))
  {
    StartOfRun<T, L>(mgr, items);
    var c := RunControl(Pool([], Initial<L>()), mgr, items, NeverSet());
    var n := c.spawned;
    assert c.pool.queue == Items(items) + [Stop] + Stops(n - 1);
    WorkerHandlesUpToSentinel(c.pool, h, items, Stops(n - 1));
    var w0 := WorkerRun(c.pool, h);
    WorkersTakeOneSentinelEach(w0.pool, h, n - 1, n - 1);
    assert RunWorkers(c.pool, h, n).1 == items + [];
  }

  /** With no worker (`num_workers` zero or negative, which the constructor
      accepts), nobody is spawned and no `'STOP'` is put, yet every item is
      queued; no item is handled, all of them stay queued, and the run
      still returns code 0 `Success`. */
  lemma ZeroWorkersRun<T, L>(mgr: ImportManager, h: ItemHandler<T, L>, items: seq<T>)
    requires mgr.numWorkers <= 0
    ensures SequentialRun(mgr, h, items).handled == []
    ensures SequentialRun(mgr, h, items).pool.queue == Items(items)
    ensures SequentialRun(mgr, h, items).status == Some(ExitStatus(0, SuccessMessage, None))
  {
    var c := RunControl(Pool([], Initial<L>()), mgr, items, NeverSet());
    RunControlWithoutError(Pool([], Initial<L>()), mgr, items, NeverSet());
    assert c.spawned == 0;
    assert c.pool.queue == Items(items);
    assert !c.pool.sig.errorOccurred;
  }

  /** The worker phase with one failing item: the first worker handles up
      to and including it, the others find the flag set and leave. */
  lemma {:induction false} WorkersWithFailure<T, L>(p: Pool<T, L>, h: ItemHandler<T, L>, n: nat, pre: seq<T>, bad: T, rest: seq<Entry<T>>)
    requires n >= 1
    requires Consistent(p.sig) && !p.sig.errorOccurred
    requires p.queue == Items(pre) + [Item(bad)] + rest
    requires AllSucceed(h, pre)
    requires h.handle(bad).Fail? && !h.equalsStop(bad)
    ensures RunWorkers(p, h, n).1 == pre + [bad]
    ensures RunWorkers(p, h, n).0.queue == rest
    ensures RunWorkers(p, h, n).0.sig.errorOccurred
    ensures RunWorkers(p, h, n).0.sig.error == Some(ExitStatus(1, h.handle(bad).error, Some(h.logItem(bad))))
  {
    WorkerStopsAtFailure(p, h, pre, bad, rest);
    var w0 := WorkerRun(p, h);
    WorkersAfterErrorLeave(w0.pool, h, n - 1);
    assert RunWorkers(p, h, n).1 == pre + [bad] + [];
  }

  /** With one failing item (all before it good), the items up to and
      including it are handled, nothing after it is, the queue ends empty
      and the run returns code 1 with that item's label as target. */
  lemma SingleFailureRun<T, L>(mgr: ImportManager, h: ItemHandler<T, L>, pre: seq<T>, bad: T, post: seq<T>)
    requires mgr.numWorkers >= 1
    requires AllSucceed(h, pre)
    requires h.handle(bad).Fail? && !h.equalsStop(bad)
    ensures SequentialRun(mgr, h, pre + [bad] + post).handled == pre + [bad]
    ensures SequentialRun(mgr, h, pre + [bad] + post).pool.queue == []
    ensures SequentialRun(mgr, h, pre + [bad] + post).status
         == Some(ExitStatus(1, h.handle(bad).error, Some(h.logItem(bad))))
  {
    var items := pre + [bad] + post;
    StartOfRun<T, L>(mgr, items);
    var c := RunControl(Pool([], Initial<L>()), mgr, items, NeverSet());
    ItemsSplit(pre, bad, post);
    var rest := Items(post) + Stops(c.spawned);
    assert c.pool.queue == Items(pre) + [Item(bad)] + rest;
    WorkersWithFailure(c.pool, h, c.spawned, pre, bad, rest);
  }

  /** The constructor's guard compares the class with `BaseHandler` only.
      It refuses the base class, but admits a subclass that overrides
      `build_items` and inherits `_handle_item` and `_reset_stats`; a run
      with such a subclass stops at the first item it yields, which fails
      with NotImplementedError, and ends with code 1 naming that item. */
  lemma InheritedHandleItemPassesGuard<T(!new)>(name: string, numWorkers: Option<int>, h0: BaseHandler.Handler<T>,
                                                render: BaseHandler.HandlerError -> string, equalsStop: T -> bool,
                                                first: T, rest: seq<T>)
    requires numWorkers.None? || numWorkers.value >= 1
    requires !equalsStop(first)
    ensures NewImportManager(BaseHandlerClass, numWorkers).Failure?
    ensures NewImportManager(Subclass(name), numWorkers).Success?
    ensures var mgr := NewImportManager(Subclass(name), numWorkers).value;
      var ih := FromHandlerClass(h0, BaseHandler.ResetStats, BaseHandler.HandleItem, render, equalsStop);
      && SequentialRun(mgr, ih, [first] + rest).handled == [first]
      && SequentialRun(mgr, ih, [first] + rest).status
         == Some(ExitStatus(1, render(BaseHandler.NotImplementedError), Some(Some(first))))
  {
    var mgr := NewImportManager(Subclass(name), numWorkers).value;
    var ih := FromHandlerClass(h0, BaseHandler.ResetStats, BaseHandler.HandleItem, render, equalsStop);
    BaseHandler.BaseHandleFails(h0, first);
    assert ih.handle(first).Fail? && ih.handle(first).error == render(BaseHandler.NotImplementedError);
    assert ih.logItem(first) == Some(first);
    SingleFailureRun(mgr, ih, [], first, rest);
    assert [] + [first] + rest == [first] + rest;
  }
}

=== FILE: shared_namespace.dfy ===
/** The generic shared namespace of `NS` (`set_shared_value` /
    `get_shared_value`). The main lock only makes each call atomic, so the
    `no_lock` flag has no effect on the values stored or read. */
module SharedNamespace {
  import opened Wrappers

  datatype NsError = AttributeError(name: string)

  type Namespace<V> = map<string, V>

  /** `get_shared_value(name, no_lock)`: the stored value, AttributeError
      for a name never set. */
  function GetSharedValue<V>(ns: Namespace<V>, name: string, noLock: bool): (r: Result<V, NsError>)
    ensures r.Success? <==> name in ns
    ensures r.Success? ==> r.value == ns[name]
    ensures r.Failure? ==> r.error == AttributeError(name)
  {
    if name in ns then Success(ns[name]) else Failure(AttributeError(name))
  }

  /** `set_shared_value(name, value, no_lock)`: afterwards `name` reads back
      as `value` whichever locking mode either call uses, and every other
      name reads as before. */
  function SetSharedValue<V>(ns: Namespace<V>, name: string, value: V, noLock: bool): (r: Namespace<V>)
    ensures forall readNoLock: bool :: GetSharedValue(r, name, readNoLock) == Success(value)
    ensures forall n, readNoLock: bool :: n != name ==> GetSharedValue(r, n, readNoLock) == GetSharedValue(ns, n, readNoLock)
    ensures r.Keys == ns.Keys + {name}
  {
    ns[name := value]
  }

  /** The locking mode of a write is invisible to every later read. */
  lemma NoLockDoesNotChangeStoredValue<V>(ns: Namespace<V>, name: string, value: V, n: string)
    ensures GetSharedValue(SetSharedValue(ns, name, value, true), n, false)
         == GetSharedValue(SetSharedValue(ns, name, value, false), n, true)
  {
    if n != name {
      assert GetSharedValue(SetSharedValue(ns, name, value, true), n, false) == GetSharedValue(ns, n, false);
    }
  }
}

=== FILE: stats.dfy ===
/** The statistics aggregator (`Stats`): integer counters keyed by name plus
    the set of registered names. `set_stats_val`, `inc_stats_val`,
    `get_stats_val` and `inc_stats_vals` run under the stats lock; `add_key`,
    `stat_keys` and a direct `get_stats` take no lock of their own and are
    treated here as atomic too. Each operation is one update of this
    record. The registry is kept apart
    from the counters (see the as-written namespace model in
    stats_as_written.dfy for what happens when the two share a namespace). */
module StatsAggregator {
  import opened Wrappers

  datatype Stats = Stats(values: map<string, int>, keys: set<string>)

  /** The aggregator before any write: no counters, no registered names. */
  const Empty: Stats := Stats(map[], {})

  /** Invariant: every name holding a value is registered. */
  predicate Registered(s: Stats)
  {
    s.values.Keys <= s.keys
  }

  /** `stat_keys()`: the registered names (the empty set before any
      registration). */
  function StatKeys(s: Stats): set<string>
  {
    s.keys
  }

  /** The stored value of `name`, a missing one counting as 0 (how the
      increments treat a name they have not seen). */
  function Current(s: Stats, name: string): int
  {
    if name in s.values then s.values[name] else 0
  }

  /** `add_key(name)`: registers `name` without touching any value. */
  function AddKey(s: Stats, name: string): (r: Stats)
    ensures StatKeys(r) == StatKeys(s) + {name}
    ensures r.values == s.values
    ensures Registered(s) ==> Registered(r)
  {
    s.(keys := s.keys + {name})
  }

  /** `get_stats_val(name, default)`: the stored value, or `default` for a
      name that holds none. */
  function GetStatsVal(s: Stats, name: string, default: Option<int>): (r: Option<int>)
    ensures name in s.values ==> r == Some(s.values[name])
    ensures name !in s.values ==> r == default
    ensures default.Some? ==> r.Some?
  {
    if name in s.values then Some(s.values[name]) else default
  }

  /** `set_stats_val(name, value)`: registers `name`, stores `value` and
      returns it. */
  function SetStatsVal(s: Stats, name: string, value: int): (r: (Stats, int))
    ensures r.1 == value
    ensures GetStatsVal(r.0, name, None) == Some(value)
    ensures StatKeys(r.0) == StatKeys(s) + {name}
    ensures forall n :: n != name ==> GetStatsVal(r.0, n, None) == GetStatsVal(s, n, None)
    ensures Registered(s) ==> Registered(r.0)
  {
    var s1 := AddKey(s, name);
    (s1.(values := s1.values[name := value]), value)
  }

  /** `inc_stats_val(name, value)`: registers `name`, adds `delta` to its
      value (a missing one starting at 0) and returns the new value. */
  function IncStatsVal(s: Stats, name: string, delta: int): (r: (Stats, int))
    ensures r.1 == Current(s, name) + delta
    ensures GetStatsVal(r.0, name, None) == Some(r.1)
    ensures StatKeys(r.0) == StatKeys(s) + {name}
    ensures forall n :: n != name ==> GetStatsVal(r.0, n, None) == GetStatsVal(s, n, None)
    ensures Registered(s) ==> Registered(r.0)
  {
    var s1 := AddKey(s, name);
    var v := Current(s1, name) + delta;
    (s1.(values := s1.values[name := v]), v)
  }

  /** `get_stats(ignore_keys)`: every registered name outside `ignore`,
      with its value, or `None` for a name registered through `add_key`
      alone. */
  function GetStats(s: Stats, ignore: set<string>): (r: map<string, Option<int>>)
    ensures r.Keys == StatKeys(s) - ignore
    ensures forall n :: n in r ==> r[n] == GetStatsVal(s, n, None)
  {
    map n | n in s.keys && n !in ignore :: GetStatsVal(s, n, None)
  }

  /** `inc_stats_vals(vals, return_stats, ignore_keys=...)`: in one critical
      section, registers every name of `vals` and adds `vals[n]` to it; when
      `returnStats` is set it also returns the snapshot `get_stats` takes
      before the lock is released. */
  function IncStatsVals(s: Stats, vals: map<string, int>, returnStats: bool, ignore: set<string>)
    : (r: (Stats, Option<map<string, Option<int>>>))
    ensures forall n :: n in vals ==> GetStatsVal(r.0, n, None) == Some(Current(s, n) + vals[n])
    ensures forall n :: n !in vals ==> GetStatsVal(r.0, n, None) == GetStatsVal(s, n, None)
    ensures StatKeys(r.0) == StatKeys(s) + vals.Keys
    ensures Registered(s) ==> Registered(r.0)
    ensures returnStats <==> r.1.Some?
    ensures returnStats ==> r.1.value.Keys == StatKeys(r.0) - ignore
    ensures returnStats ==> r.1 == Some(GetStats(r.0, ignore))
  {
    var values := map n | n in s.values.Keys + vals.Keys ::
      if n in vals then Current(s, n) + vals[n] else s.values[n];
    var s1 := Stats(values, s.keys + vals.Keys);
    (s1, if returnStats then Some(GetStats(s1, ignore)) else None)
  }

  /** Applying `inc_stats_val` once per name, in any order that lists each
      name of `vals` once. */
  function IncEach(s: Stats, vals: map<string, int>, order: seq<string>): Stats
    requires forall i :: 0 <= i < |order| ==> order[i] in vals
    decreases |order|
  {
    if |order| == 0 then s
    else IncEach(IncStatsVal(s, order[0], vals[order[0]]).0, vals, order[1..])
  }

  /** Distinct names. */
  predicate NoDuplicates(order: seq<string>)
  {
    forall i, j :: 0 <= i < j < |order| ==> order[i] != order[j]
  }

  /** The names listed in `order`. */
  function NameSet(order: seq<string>): (r: set<string>)
    ensures forall n :: n in r <==> n in order
    decreases |order|
  {
    if |order| == 0 then {} else {order[0]} + NameSet(order[1..])
  }

  lemma {:induction false} IncEachEffect(s: Stats, vals: map<string, int>, order: seq<string>)
    requires forall i :: 0 <= i < |order| ==> order[i] in vals
    requires NoDuplicates(order)
    ensures IncEach(s, vals, order).keys == s.keys + NameSet(order)
    ensures IncEach(s, vals, order).values.Keys == s.values.Keys + NameSet(order)
    ensures forall n :: n in order ==> IncEach(s, vals, order).values[n] == Current(s, n) + vals[n]
    ensures forall n :: n in s.values && n !in order ==> IncEach(s, vals, order).values[n] == s.values[n]
    decreases |order|
  {
    if |order| > 0 {
      var s1 := IncStatsVal(s, order[0], vals[order[0]]).0;
      var rest := order[1..];
      assert NoDuplicates(rest) by {
        forall i, j | 0 <= i < j < |rest|
          ensures rest[i] != rest[j]
        {
          assert rest[i] == order[i + 1] && rest[j] == order[j + 1];
        }
      }
      IncEachEffect(s1, vals, rest);
      assert order[0] !in rest by {
        forall i | 0 <= i < |rest|
          ensures rest[i] != order[0]
        {
          assert rest[i] == order[i + 1];
        }
      }
      assert forall n :: n in order <==> n == order[0] || n in rest;
      assert GetStatsVal(s1, order[0], None) == Some(Current(s, order[0]) + vals[order[0]]);
      forall n | n in s.values && n != order[0]
        ensures n in s1.values && s1.values[n] == s.values[n]
      {
        assert GetStatsVal(s1, n, None) == GetStatsVal(s, n, None);
      }
      forall n | n !in s.values && n != order[0]
        ensures n !in s1.values
      {
        assert GetStatsVal(s1, n, None) == GetStatsVal(s, n, None);
      }
    }
  }

  /** The bulk increment is the same as incrementing each name on its own,
      in any order: no name of `vals` is skipped or counted twice. */
  lemma IncStatsValsIsEachIncrement(s: Stats, vals: map<string, int>, order: seq<string>)
    requires forall i :: 0 <= i < |order| ==> order[i] in vals
    requires NoDuplicates(order)
    requires forall n :: n in vals ==> n in order
    ensures IncStatsVals(s, vals, false, {}).0 == IncEach(s, vals, order)
  {
    IncEachEffect(s, vals, order);
    var r := IncEach(s, vals, order);
    var b := IncStatsVals(s, vals, false, {}).0;
    assert NameSet(order) == vals.Keys;
    assert b.values.Keys == r.values.Keys;
    forall n | n in b.values
      ensures b.values[n] == r.values[n]
    {
      assert GetStatsVal(b, n, None) == Some(b.values[n]);
    }
    assert b.values == r.values;
  }

  /** `inc_stats_vals(vals)` performed `times` times in a row. */
  function IncRepeated(s: Stats, vals: map<string, int>, times: nat): Stats
  {
    if times == 0 then s else IncStatsVals(IncRepeated(s, vals, times - 1), vals, false, {}).0
  }

  /** No lost updates: after `times` serialized bulk increments every name
      of `vals` has grown by exactly `times * vals[n]`. */
  lemma {:induction false} IncRepeatedTotals(s: Stats, vals: map<string, int>, times: nat, n: string)
    requires n in vals
    ensures Current(IncRepeated(s, vals, times), n) == Current(s, n) + times * vals[n]
    ensures n in StatKeys(IncRepeated(s, vals, times)) <==> n in StatKeys(s) || times > 0
  {
    if times > 0 {
      IncRepeatedTotals(s, vals, times - 1, n);
      var prev := IncRepeated(s, vals, times - 1);
      assert GetStatsVal(IncRepeated(s, vals, times), n, None) == Some(Current(prev, n) + vals[n]);
      assert (times - 1) * vals[n] + vals[n] == times * vals[n];
    }
  }

  /** One locked statistics operation, as a worker or handler issues it. */
  datatype StatsOp =
    | SetOp(name: string, value: int)
    | IncOp(name: string, delta: int)
    | IncManyOp(vals: map<string, int>)
    | AddKeyOp(name: string)

  function Apply(s: Stats, op: StatsOp): Stats
  {
    match op
    case SetOp(name, value) => SetStatsVal(s, name, value).0
    case IncOp(name, delta) => IncStatsVal(s, name, delta).0
    case IncManyOp(vals) => IncStatsVals(s, vals, false, {}).0
    case AddKeyOp(name) => AddKey(s, name)
  }

  /** Operations applied in order. */
  function ApplyAll(s: Stats, ops: seq<StatsOp>): Stats
    decreases |ops|
  {
    if |ops| == 0 then s else ApplyAll(Apply(s, ops[0]), ops[1..])
  }

  /** Whether `op` stores a value under `name`. */
  predicate Writes(op: StatsOp, name: string)
  {
    match op
    case SetOp(n, _) => n == name
    case IncOp(n, _) => n == name
    case IncManyOp(vals) => name in vals
    case AddKeyOp(_) => false
  }

  /** The registry invariant holds after any sequence of operations that
      starts from the empty aggregator (or any registered state). */
  lemma {:induction false} RegisteredAfterAll(s: Stats, ops: seq<StatsOp>)
    requires Registered(s)
    ensures Registered(ApplyAll(s, ops))
    ensures StatKeys(s) <= StatKeys(ApplyAll(s, ops))
    decreases |ops|
  {
    if |ops| > 0 {
      RegisteredAfterAll(Apply(s, ops[0]), ops[1..]);
    }
  }

  /** `get_stats_val(name, default)` returns `default` for a name no
      operation ever wrote. */
  lemma {:induction false} UnwrittenGivesDefault(s: Stats, ops: seq<StatsOp>, name: string, default: Option<int>)
    requires name !in s.values
    requires forall i :: 0 <= i < |ops| ==> !Writes(ops[i], name)
    ensures GetStatsVal(ApplyAll(s, ops), name, default) == default
    decreases |ops|
  {
    if |ops| > 0 {
      var s1 := Apply(s, ops[0]);
      assert !Writes(ops[0], name);
      assert GetStatsVal(s1, name, None) == GetStatsVal(s, name, None);
      UnwrittenGivesDefault(s1, ops[1..], name, default);
    }
  }

  /** `get_stats()` after any sequence of operations lists exactly the
      registered names, each written name with its value. */
  lemma GetStatsListsWrittenNames(ops: seq<StatsOp>, ignore: set<string>, name: string)
    requires name !in ignore
    requires exists i :: 0 <= i < |ops| && Writes(ops[i], name)
    ensures var r := GetStats(ApplyAll(Empty, ops), ignore);
      name in r && r[name].Some?
  {
    var i :| 0 <= i < |ops| && Writes(ops[i], name);
    WrittenStaysWritten(Empty, ops, i, name);
    RegisteredAfterAll(Empty, ops);
  }

  lemma {:induction false} WrittenStaysWritten(s: Stats, ops: seq<StatsOp>, i: nat, name: string)
    requires i < |ops| && Writes(ops[i], name)
    ensures name in ApplyAll(s, ops).values
    decreases |ops|
  {
    var s1 := Apply(s, ops[0]);
    if i == 0 {
      assert name in s1.values;
      StaysWritten(s1, ops[1..], name);
    } else {
      WrittenStaysWritten(s1, ops[1..], i - 1, name);
    }
  }

  lemma {:induction false} StaysWritten(s: Stats, ops: seq<StatsOp>, name: string)
    requires name in s.values
    ensures name in ApplyAll(s, ops).values
    decreases |ops|
  {
    if |ops| > 0 {
      var s1 := Apply(s, ops[0]);
      assert GetStatsVal(s1, name, None).Some? by {
        if !Writes(ops[0], name) {
          assert GetStatsVal(s1, name, None) == GetStatsVal(s, name, None);
        }
      }
      StaysWritten(s1, ops[1..], name);
    }
  }
}

=== FILE: stats_as_written.dfy ===
/** The statistics storage as the source lays it out: the counters and the
    registry of names are attributes of ONE shared namespace, the registry
    under the attribute name `stat_keys`. A counter called "stat_keys"
    therefore overwrites the registry. This module models that layout, shows
    the clash on a concrete input, and shows that for every other name it
    behaves exactly like the `StatsAggregator` record used by the rest of
    the model. */
module StatsAsWritten {
  import opened Wrappers
  import StatsAggregator

  /** An attribute of the stats namespace: a counter or the registry set. */
  datatype Attr = Number(n: int) | KeySet(names: set<string>)

  type Namespace = map<string, Attr>

  /** The attribute the registry is stored under. */
  const KeysAttr: string := "stat_keys"

  /** `getattr(stats, 'stat_keys', set())`. */
  function RawStatKeys(ns: Namespace): (r: Attr)
    ensures KeysAttr !in ns ==> r == KeySet({})
    ensures KeysAttr in ns ==> r == ns[KeysAttr]
  {
    if KeysAttr in ns then ns[KeysAttr] else KeySet({})
  }

  /** `add_key(name)`: `None` when the registry attribute is a number, since
      `.add` then raises AttributeError. */
  function RawAddKey(ns: Namespace, name: string): (r: Option<Namespace>)
    ensures RawStatKeys(ns).KeySet? <==> r.Some?
    ensures r.Some? ==> RawStatKeys(r.value) == KeySet(RawStatKeys(ns).names + {name})
    ensures r.Some? ==> forall n :: n != KeysAttr ==> (n in r.value <==> n in ns)
  {
    match RawStatKeys(ns)
    case KeySet(names) => Some(ns[KeysAttr := KeySet(names + {name})])
    case Number(_) => None
  }

  /** `set_stats_val(name, value)` on the shared namespace: `None` when the
      call raises (leaving the stats lock held). */
  function RawSetStatsVal(ns: Namespace, name: string, value: int): (r: Option<(Namespace, int)>)
    ensures r.Some? <==> RawStatKeys(ns).KeySet?
    ensures r.Some? ==> r.value.1 == value && name in r.value.0 && r.value.0[name] == Number(value)
  {
    match RawAddKey(ns, name)
    case Some(ns1) => Some((ns1[name := Number(value)], value))
    case None => None
  }

  /** `ns` stores exactly the counters and the registry of `s`. */
  predicate Represents(ns: Namespace, s: StatsAggregator.Stats)
  {
    && RawStatKeys(ns) == KeySet(s.keys)
    && KeysAttr !in s.values
    && ns.Keys - {KeysAttr} == s.values.Keys
    && (forall n :: n in s.values ==> n in ns && ns[n] == Number(s.values[n]))
  }

  /** For every name other than "stat_keys", the shared-namespace layout and
      the separate-registry record agree: same result, same counters, same
      registry. */
  lemma RawSetStatsValAgrees(ns: Namespace, s: StatsAggregator.Stats, name: string, value: int)
    requires Represents(ns, s)
    requires name != KeysAttr
    ensures RawSetStatsVal(ns, name, value).Some?
    ensures RawSetStatsVal(ns, name, value).value.1 == StatsAggregator.SetStatsVal(s, name, value).1
    ensures Represents(RawSetStatsVal(ns, name, value).value.0, StatsAggregator.SetStatsVal(s, name, value).0)
  {
    var ns1 := RawAddKey(ns, name).value;
    var r := RawSetStatsVal(ns, name, value).value.0;
    var t := StatsAggregator.SetStatsVal(s, name, value).0;
    assert r == ns1[name := Number(value)];
    assert t.values == s.values[name := value];
    assert RawStatKeys(r) == KeySet(t.keys);
    assert r.Keys - {KeysAttr} == t.values.Keys;
    forall n | n in t.values
      ensures n in r && r[n] == Number(t.values[n])
    {
      if n != name {
        assert r[n] == ns[n];
      }
    }
  }

  /** The clash: storing a counter named "stat_keys" replaces the registry
      by a number, so the name is not recorded as registered and the next
      `set_stats_val` of any name raises. */
  lemma StatKeysCounterBreaksRegistry()
    ensures RawSetStatsVal(map[], KeysAttr, 5).Some?
    ensures RawStatKeys(RawSetStatsVal(map[], KeysAttr, 5).value.0) == Number(5)
    ensures RawSetStatsVal(RawSetStatsVal(map[], KeysAttr, 5).value.0, "items_total", 100).None?
  {
  }
}

=== FILE: utils.dfy ===
/** Batching of a sequence into fixed-size groups (`build_batches`). */
module Utils {

  /** Concatenation of a sequence of groups, in order. */
  function Flatten<T>(groups: seq<seq<T>>): seq<T>
  {
    if |groups| == 0 then [] else groups[0] + Flatten(groups[1..])
  }

  function Abs(x: int): nat
  {
    if x < 0 then -x else x
  }

  /** Ceiling of `n / k`. */
  function CeilDiv(n: nat, k: nat): nat
    requires k > 0
  {
    (n + k - 1) / k
  }

  /** Reference definition of the grouping: consecutive groups of `k`
      elements, the last one holding the remainder, no empty group. */
  function Chunks<T>(xs: seq<T>, k: nat): seq<seq<T>>
    requires k > 0
    decreases |xs|
  {
    if |xs| == 0 then []
    else if |xs| <= k then [xs]
    else [xs[..k]] + Chunks(xs[k..], k)
  }

  /** Every group holds exactly `k` elements. */
  predicate AllFull<T>(groups: seq<seq<T>>, k: nat)
  {
    forall i :: 0 <= i < |groups| ==> |groups[i]| == k
  }

  /** Python's `n % size == 0` (floored remainder) and Dafny's Euclidean
      remainder agree on divisibility; below `|size|` only `|size|` itself
      is a multiple. */
  lemma RemainderZeroOnlyWhenFull(d: nat, size: int)
    requires size != 0
    requires 1 <= d <= Abs(size)
    ensures d % size == 0 <==> d == Abs(size)
  {
    if d < Abs(size) {
      assert d / size == 0;
    } else if size > 0 {
      assert d / size == 1;
    } else {
      assert d / size == -1;
    }
  }

  /** Appending a partial group after a run of full groups appends exactly
      one group. */
  lemma {:induction false} ChunksSnoc<T>(a: seq<T>, b: seq<T>, k: nat)
    requires k > 0
    requires AllFull(Chunks(a, k), k)
    requires 1 <= |b| <= k
    ensures Chunks(a + b, k) == Chunks(a, k) + [b]
    decreases |a|
  {
    if |a| == 0 {
      assert a + b == b;
    } else {
      assert |Chunks(a, k)[0]| == k;
      if |a| <= k {
        assert |a| == k;
        assert (a + b)[..k] == a;
        assert (a + b)[k..] == b;
      } else {
        var tail := Chunks(a[k..], k);
        assert Chunks(a, k) == [a[..k]] + tail;
        assert AllFull(tail, k) by {
          forall i | 0 <= i < |tail|
            ensures |tail[i]| == k
          {
            assert tail[i] == Chunks(a, k)[i + 1];
          }
        }
        ChunksSnoc(a[k..], b, k);
        assert (a + b)[..k] == a[..k];
        assert (a + b)[k..] == a[k..] + b;
      }
    }
  }

  /** Concatenating the groups gives back the input. */
  lemma {:induction false} ChunksFlatten<T>(xs: seq<T>, k: nat)
    requires k > 0
    ensures Flatten(Chunks(xs, k)) == xs
    decreases |xs|
  {
    if |xs| == 0 {
    } else if |xs| <= k {
      assert Flatten([xs]) == xs + Flatten([]);
    } else {
      ChunksFlatten(xs[k..], k);
      var c := Chunks(xs, k);
      assert c[1..] == Chunks(xs[k..], k);
      assert xs == xs[..k] + xs[k..];
    }
  }

  /** Every group but the last is full, the last holds 1 to `k` elements,
      so no group is empty. */
  lemma {:induction false} ChunksSizes<T>(xs: seq<T>, k: nat)
    requires k > 0
    ensures forall i :: 0 <= i < |Chunks(xs, k)| ==> 1 <= |Chunks(xs, k)[i]| <= k
    ensures forall i :: 0 <= i < |Chunks(xs, k)| - 1 ==> |Chunks(xs, k)[i]| == k
    decreases |xs|
  {
    if |xs| > k {
      ChunksSizes(xs[k..], k);
      var c := Chunks(xs, k);
      forall i | 1 <= i < |c|
        ensures c[i] == Chunks(xs[k..], k)[i - 1]
      {
      }
    }
  }

  lemma MulAtLeast(k: int, d: int)
    requires k > 0 && d >= 1
    ensures k * d >= k
  {
    if d > 1 {
      MulAtLeast(k, d - 1);
      assert k * d == k * (d - 1) + k;
    }
  }

  lemma DivUnique(a: int, k: int, q: int)
    requires k > 0
    requires k * q <= a < k * q + k
    ensures a / k == q
  {
    var q' := a / k;
    assert a == k * q' + a % k;
    if q' > q {
      MulAtLeast(k, q' - q);
    } else if q' < q {
      MulAtLeast(k, q - q');
    }
  }

  lemma DivStep(a: int, k: int)
    requires k > 0 && a >= 0
    ensures (a + k) / k == a / k + 1
  {
    var q := a / k;
    assert k * q <= a < k * q + k;
    DivUnique(a + k, k, q + 1);
  }

  /** The number of groups is `ceil(n / k)`. */
  lemma {:induction false} ChunksCount<T>(xs: seq<T>, k: nat)
    requires k > 0
    ensures |Chunks(xs, k)| == CeilDiv(|xs|, k)
    decreases |xs|
  {
    if |xs| == 0 {
      assert (k - 1) / k == 0;
    } else if |xs| <= k {
      assert k <= |xs| + k - 1 < 2 * k;
      assert (|xs| + k - 1) / k == 1;
    } else {
      ChunksCount(xs[k..], k);
      DivStep(|xs| - k + k - 1, k);
    }
  }

  /** `build_batches(iterable, size)`, following the source loop: a falsy
      size yields the input itself as the only group; otherwise elements
      are collected into a buffer that is emitted whenever its length is a
      multiple of `size`, and a non-empty leftover is emitted at the end.
      A negative size behaves like its absolute value, since only
      divisibility is checked. */
  method BuildBatches<T>(xs: seq<T>, size: int) returns (batches: seq<seq<T>>)
    ensures size == 0 ==> batches == [xs]
    ensures size != 0 ==> batches == Chunks(xs, Abs(size))
    ensures size != 0 ==> Flatten(batches) == xs
    ensures size != 0 ==> forall i :: 0 <= i < |batches| ==> 1 <= |batches[i]| <= Abs(size)
    ensures size != 0 ==> forall i :: 0 <= i < |batches| - 1 ==> |batches[i]| == Abs(size)
    ensures size != 0 ==> |batches| == CeilDiv(|xs|, Abs(size))
    ensures size != 0 && |xs| == 0 ==> batches == []
  {
    if size == 0 {
      return [xs];
    }
    var k := Abs(size);
    var data: seq<T> := [];
    batches := [];
    var i := 0;
    while i < |xs|
      invariant 0 <= i <= |xs|
      invariant |data| < k
      invariant |data| <= i
      invariant data == xs[i - |data|..i]
      invariant batches == Chunks(xs[..i - |data|], k)
      invariant AllFull(batches, k)
    {
      var j := i - |data|;
      data := data + [xs[i]];
      i := i + 1;
      RemainderZeroOnlyWhenFull(|data|, size);
      if |data| % size == 0 {
        ChunksSnoc(xs[..j], data, k);
        assert xs[..j] + data == xs[..i];
        batches := batches + [data];
        data := [];
      }
    }
    if |data| > 0 {
      ChunksSnoc(xs[..|xs| - |data|], data, k);
      assert xs[..|xs| - |data|] + data == xs;
      batches := batches + [data];
    } else {
      assert xs[..|xs|] == xs;
    }
    ChunksFlatten(xs, k);
    ChunksSizes(xs, k);
    ChunksCount(xs, k);
  }
}

=== FILE: wrappers.dfy ===
/** How Python's `None` and raised exceptions appear in this model. */
module Wrappers {

  /** A value that may be Python's `None`. */
  datatype Option<T> = None | Some(value: T)

  /** A call that returns a value or raises `error`. */
  datatype Result<R, E> = Success(value: R) | Failure(error: E)

  /** A call whose return value is unused: it completes or raises `error`. */
  datatype Outcome<E> = Pass | Fail(error: E)
}
